=== FILE: README.md ===
# ResultsSection, modelled in Dafny

This project models the logic of `ResultsSection`, the results panel of a
resume-search front end. It models what the panel computes from a search
result. It does not model how the panel renders it.

- **The answer cleaner** (`cleanAIAnswer`): five regular-expression
  replacements and a `trim()`. They remove markdown symbols, bullet and
  number markers, and link targets, and collapse runs of blank lines
  (`cleaner.dfy`).
- **The candidate extractor** (`extractCandidatesFromAnswer`): seven name
  patterns, each run with the global `exec` loop (`names.dfy`,
  `extractor.dfy`). Each capture is trimmed and normalised to title case.
  A name is kept the first time it is seen, and only when it is longer
  than two characters.
- **The panel.** This covers which of the four views is shown (loading,
  no database, empty, populated), the candidate count, and the agent chip
  (`getAgentColor`, `formatAgentName`). It also covers each candidate's
  preview, found with a case-insensitive containment test, the "Additional
  Resume Previews" list, and the body of the preview modal, including
  `ensurePDFPreviewUrl` (`results.dfy`).
- **Shared character classes and string helpers** (`text.dfy`). These
  follow ECMAScript: `\s` and `trim()` use WhiteSpace plus LineTerminator,
  `\w` is `[A-Za-z0-9_]`, and `^` with the `m` flag holds after a line
  terminator.
- **Concrete inputs** that show behaviour a reader might not expect
  (`scenarios.dfy`), and the extractor's own worked example, where
  `**1. Nadia Delgado**` yields `Nadia Delgado` (`ranked.dfy`).

## How the regular expressions are modelled

Each regular expression is a deterministic matcher at a position.

- The name groups `[A-Z][a-z]+(?:\s+[A-Z][a-z]+)+` and
  `[A-Z]{2,}(?:\s+[A-Z]{2,})+` consume greedy runs. They backtrack only
  over whole repetitions, and giving back part of a run never changes the
  result.
  - The bulleted and numbered patterns have nothing after the group. Their
    greedy attempt succeeds once two words are in, so the engine never
    backtracks into a run.
  - In the other five patterns, the character left after a shortened run
    is a letter of the same class or a space. Neither another repetition
    nor the pattern's tail (`**`, `:*`, `:` or `\b`) accepts it.

  So this matcher is exact.
- The global `exec` loop becomes `Extractor.ExecLoop`. It runs over a table
  of the match at every position. After a match it resumes at the match's
  end; after a failed position it resumes at the next one.

`Extractor.ScanCovers` and `Extractor.MatchFinds` state the converse
properties. No position where the pattern matches is skipped. The matchers
find every name of the right shape that has the right lead-in and tail.

## Behaviour worth knowing

The model follows the code. These are places where the code does something
a reader might not expect from its comments or the usual description of
the component.

- **Cleaning is not idempotent.** The bullet step removes one marker per
  line per pass, so `- - x` cleans to `- x`, and that cleans to `x`
  (`Scenarios.CleanTakesOneBulletPerPass`).
- **The comment at line 290 says the additional list holds only previews
  that match no candidate.** The code lists every preview, including those
  already offered on a candidate card (`Results.MatchedPreviewsAlsoListed`).
- **Related names must contain one another.** A preview named
  `Delgado, Nadia (resume)` is not related to the candidate
  `Nadia Delgado` (`Scenarios.ReorderedNameNotRelated`). A preview with an
  empty name relates to every candidate (`Results.EmptyNameRelatesToAll`).
- **Normalisation splits words on `' '` only.** A capital name broken over
  a line keeps its second word in lower case
  (`Scenarios.NewlineIsNotAWordBreak`).
- **The `length > 2` test never drops a capture.** Every captured name has
  two words of at least two letters, so its key is longer than two
  characters, as the filter needs (`Extractor.CaptureKeyLong`, `Extractor.EveryCaptureKept`).
- **`formatAgentName` replaces only the first underscore**, and an
  underscore is a word character. So `a_b_c` becomes `A B_c`
  (`Scenarios.SecondUnderscoreKept`).

## Model

| member | source | states |
|---|---|---|
| Text.Trim | src/components/ResultsSection.tsx:100 | the result is the input with leading and trailing whitespace removed, and it neither starts nor ends with whitespace |
| Text.ContainsIffOccurs | src/components/ResultsSection.tsx:231-232 | `includes` holds exactly when the needle occurs at some index of the haystack |
| Text.Contains | src/components/ResultsSection.tsx:231-232 | `includes`: the needle is a prefix of the haystack or of one of its suffixes; `Text.ContainsIffOccurs` relates it to an occurrence at an index |
| Text.Lower | src/components/ResultsSection.tsx:231-232 | `toLowerCase()`: the same length, and each character is lower-cased where it stands |
| Text.EndsWith | src/components/ResultsSection.tsx:59 | `endsWith`: the suffix is the last characters of the string |
| Cleaner.StripSymbols | src/components/ResultsSection.tsx:33 | a character is in the result exactly when it is in the input and is not one of `` *_`#~> `` |
| Cleaner.StripSymbolsCounts | src/components/ResultsSection.tsx:33 | every other character keeps its number of occurrences; the symbols occur zero times |
| Cleaner.StripKeepsPlain | src/components/ResultsSection.tsx:33 | text with none of the symbols comes out of step 1 unchanged |
| Cleaner.StripSymbolsOne | src/components/ResultsSection.tsx:33 | on one character, a symbol is dropped and any other character is kept |
| Cleaner.StripSymbolsAppend | src/components/ResultsSection.tsx:33 | stripping distributes over concatenation, so the result is the input with its symbols left out and the rest in order |
| Cleaner.BulletAt | src/components/ResultsSection.tsx:34 | a bullet match starts a line and covers optional whitespace, one of `-*+` and a space |
| Cleaner.BulletFinds | src/components/ResultsSection.tsx:34 | conversely, a bullet marker at a line start is matched, up to its end, and deleted |
| Cleaner.NumberAt | src/components/ResultsSection.tsx:35 | a numbered-item match starts a line and covers whitespace, digits, a dot and at least one whitespace character; no whitespace follows it, since `\s+` is greedy |
| Cleaner.NumberFinds | src/components/ResultsSection.tsx:35 | conversely, a numbered marker at a line start, with its whitespace run taken whole, is matched and deleted |
| Cleaner.CloseParen | src/components/ResultsSection.tsx:36 | the lazy `.*?\)` stops at the first `)`, with no line terminator before it |
| Cleaner.CloseParenFinds | src/components/ResultsSection.tsx:36 | conversely, the first `)` with no line terminator before it is where the target ends |
| Cleaner.LabelFrom | src/components/ResultsSection.tsx:36 | the lazy label `(.*?)` search: a result is a link shape whose label ends at or after where the search started |
| Cleaner.LinkAt | src/components/ResultsSection.tsx:36 | a link match has the shape `[label](target)` with neither part crossing a line |
| Cleaner.LinkFinds | src/components/ResultsSection.tsx:36 | conversely, any link shape at a position is matched, with a label no longer than that shape's, the lazy label being the shortest; the edit replaces exactly that match by exactly that label |
| Cleaner.BlankLinesAt | src/components/ResultsSection.tsx:37 | a match is a maximal run of at least two newlines |
| Cleaner.BlankLinesFinds | src/components/ResultsSection.tsx:37 | conversely, every maximal run of two or more newlines is matched and becomes exactly two |
| Cleaner.RuleAt | src/components/ResultsSection.tsx:34-37 | each rule's edit covers exactly the match its matcher finds at that position: bullets and numbers are deleted at line starts, a link becomes the label of the match `LinkAt` finds, and a newline run found by `BlankLinesAt` becomes two newlines |
| Cleaner.ReplaceFrom | src/components/ResultsSection.tsx:34-37 | the global replace never lengthens the text or adds a character other than a newline, and leaves text where the rule never matches unchanged |
| Cleaner.ReplaceCopies | src/components/ResultsSection.tsx:34-37 | text before the next match is copied unchanged |
| Cleaner.ReplaceLeftmost | src/components/ResultsSection.tsx:34-37 | the leftmost match is replaced by its edit and the search resumes at the match's end, so matches are taken left to right without overlap |
| Cleaner.ReplaceAll | src/components/ResultsSection.tsx:34-37 | `replace` with the `g` flag on a whole text: never longer, and the identity when the rule matches nowhere |
| Cleaner.CollapseNoTriple | src/components/ResultsSection.tsx:37 | after collapsing, no three newlines follow one another |
| Cleaner.TrimKeepsNoTriple | src/components/ResultsSection.tsx:38 | trimming keeps that property |
| Cleaner.Clean | src/components/ResultsSection.tsx:31-39 | the cleaned answer has no markdown symbol and no padding, never three newlines in a row, and only characters of the answer or newlines |
| Names.WordEnd | src/components/ResultsSection.tsx:72 | `[A-Z][a-z]+` greedily: a capital, then the maximal run of at least one lower-case letter |
| Names.TokenEnd | src/components/ResultsSection.tsx:90 | `[A-Z]{2,}` greedily: the maximal run of at least two capitals |
| Names.TitleRestShape | src/components/ResultsSection.tsx:72 | whatever the repetition loop accepts is a title name of at least two words |
| Names.TitleNameAt | src/components/ResultsSection.tsx:72 | a match is a title name that the pattern's tail follows |
| Names.TitleRest | src/components/ResultsSection.tsx:72 | what the `(?:\s+[A-Z][a-z]+)+` loop, backtracking over whole words, accepts: a group end followed by the tail |
| Names.TitleNameFinds | src/components/ResultsSection.tsx:72 | conversely, a title name that no lower-case letter continues and that the tail follows is matched, and the group reaches at least to its end: the longest name is taken |
| Names.TitleRestFinds | src/components/ResultsSection.tsx:72 | the repetition loop, started inside a run of title words that the pattern's tail follows, always reaches a match |
| Names.CapsRestShape | src/components/ResultsSection.tsx:90 | whatever the repetition loop accepts is a capital name of at least two tokens |
| Names.CapsNameAt | src/components/ResultsSection.tsx:90 | a match is a capital name between two word boundaries |
| Names.WordBoundary | src/components/ResultsSection.tsx:90 | `\b`: exactly one of the characters on either side is a word character |
| Names.CapsRest | src/components/ResultsSection.tsx:90 | what the `(?:\s+[A-Z]{2,})+` loop accepts: an end at a word boundary |
| Names.CapsNameFinds | src/components/ResultsSection.tsx:90 | conversely, every capital name between word boundaries is matched, reaching at least to its end: the longest name is taken |
| Names.TitleNameSlice | src/components/ResultsSection.tsx:99-100 | a matched group, cut out of the answer, is a title name on its own |
| Names.CapsNameSlice | src/components/ResultsSection.tsx:99-100 | the same for capital names |
| Extractor.RankEnd | src/components/ResultsSection.tsx:72 | `(?:\d+\.\s*)?`: either nothing, or digits, a dot and the whole whitespace run after it |
| Extractor.RankEndFinds | src/components/ResultsSection.tsx:72 | conversely, a rank with its whitespace run taken whole is consumed |
| Extractor.Lead | src/components/ResultsSection.tsx:72-87 | the part of each pattern before the group: `**` and an optional rank, `*`, a line start, a bullet with its whitespace, a number with its dot and whitespace, or nothing; it exists exactly when that lead-in is there, and the `^` patterns match only at line starts |
| Extractor.LeadFinds | src/components/ResultsSection.tsx:72-87 | conversely, a ranked bold, bulleted or numbered lead-in is consumed whole |
| Extractor.MatchAt | src/components/ResultsSection.tsx:70-90 | a match starts where it is tried, its group starts after the pattern's lead-in, and the pattern's tail follows the group |
| Extractor.MatchShape | src/components/ResultsSection.tsx:70-90 | a group has its pattern's name shape; anchored patterns match at line starts |
| Extractor.MatchFinds | src/components/ResultsSection.tsx:70-90 | every name of the right shape, with the pattern's lead-in and tail, is a match whose group reaches at least to the name's end |
| Extractor.MatchTable | src/components/ResultsSection.tsx:99 | the table holds the outcome of the pattern at every position of the answer |
| Extractor.ExecLoop | src/components/ResultsSection.tsx:97-99 | hits are real matches, in order and not overlapping, and no match starts between one hit's end and the next hit |
| Extractor.Scan | src/components/ResultsSection.tsx:97-99 | the same for a whole answer, starting at `lastIndex` 0 |
| Extractor.CoveredFrom | src/components/ResultsSection.tsx:97-99 | a match position at or after where the loop resumes lies inside a later hit |
| Extractor.ScanCovers | src/components/ResultsSection.tsx:97-99 | every position where the pattern matches lies inside some hit |
| Extractor.ExecLoopEmpty | src/components/ResultsSection.tsx:99 | with no match left the loop stops at once |
| Extractor.ScanEmpty | src/components/ResultsSection.tsx:97-99 | a pattern that matches nowhere yields no hits |
| Extractor.ScanWhole | src/components/ResultsSection.tsx:97-99 | a match covering the whole answer is the only hit |
| Extractor.Groups | src/components/ResultsSection.tsx:100 | `match[1]` of each hit, in order |
| Extractor.Captures | src/components/ResultsSection.tsx:97-100 | every capture of a title pattern is a title name, and every capture of the capital pattern is a capital name |
| Extractor.CapturesOf | src/components/ResultsSection.tsx:97 | every capture of the patterns, in pattern order, is a title name or a capital name |
| Extractor.CapturesNone | src/components/ResultsSection.tsx:97-100 | no hit, no capture |
| Extractor.CapturesOne | src/components/ResultsSection.tsx:97-100 | one hit, its group as the only capture |
| Extractor.SplitSpace | src/components/ResultsSection.tsx:105 | `split(' ')`: at least one piece, and no piece holds a space |
| Extractor.JoinSpace | src/components/ResultsSection.tsx:107 | `join(' ')`: the pieces with one space between neighbours |
| Extractor.JoinSplit | src/components/ResultsSection.tsx:105-107 | joining the split words with spaces gives back the text |
| Extractor.CapitalizeFirst | src/components/ResultsSection.tsx:106 | a word keeps its length and every character after the first; the first is upper-cased and is the same letter up to case |
| Extractor.CapWordsSplit | src/components/ResultsSection.tsx:103-107 | split, capitalise and join agree with a character-by-character reading |
| Extractor.Normalise | src/components/ResultsSection.tsx:103-107 | a character is upper-cased when it starts the text or follows a space, and lower-cased otherwise |
| Extractor.NormaliseKeepsLower | src/components/ResultsSection.tsx:103-107 | normalisation changes only letter case: lower-casing its result gives the lower-cased input |
| Extractor.Keys | src/components/ResultsSection.tsx:100-107 | each capture's key is its trimmed, normalised text |
| Extractor.Reduce | src/components/ResultsSection.tsx:109-112 | the fold keeps keys longer than two characters, each once, in order of first sighting |
| Extractor.Extract | src/components/ResultsSection.tsx:67-117 | the candidates are exactly the distinct keys longer than two characters, ordered by first sighting |
| Extractor.ReduceSingle | src/components/ResultsSection.tsx:109-112 | a single long key is kept |
| Extractor.ExtractOne | src/components/ResultsSection.tsx:95-116 | an answer with one capture yields that capture's key alone |
| Extractor.CaptureUntrimmed | src/components/ResultsSection.tsx:100 | `trim()` leaves every captured name unchanged |
| Extractor.CaptureKeyLong | src/components/ResultsSection.tsx:109 | every captured name's key is longer than two characters |
| Extractor.EveryCaptureKept | src/components/ResultsSection.tsx:109-112 | every capture's key is among the candidates |
| Extractor.TitleKeyUnchanged | src/components/ResultsSection.tsx:103-107 | a title name separated by plain spaces is its own key |
| Extractor.CapsKeyIsTitleName | src/components/ResultsSection.tsx:89-107 | the key of a capital name is a title name equal to it up to case |
| Results.EnsurePdf | src/components/ResultsSection.tsx:57-63 | the URL ends in `.pdf`; it is unchanged exactly when it already did, and otherwise has `.pdf` appended |
| Results.EnsurePdfIdempotent | src/components/ResultsSection.tsx:57-63 | applying it twice is applying it once |
| Results.Related | src/components/ResultsSection.tsx:231-232 | the `find` test: one lower-cased name contains the other |
| Results.RelatedSymmetric | src/components/ResultsSection.tsx:231-232 | the match test is symmetric in preview name and candidate |
| Results.EmptyNameRelatesToAll | src/components/ResultsSection.tsx:231-232 | a preview with an empty name relates to every candidate |
| Results.RelatedIffOccurs | src/components/ResultsSection.tsx:231-232 | related means one lower-cased name occurs at some index of the other |
| Results.FirstRelated | src/components/ResultsSection.tsx:230-233 | the index of the first related preview, and none only when no preview relates |
| Results.FindPreview | src/components/ResultsSection.tsx:230-233 | a preview is found exactly when the list exists and some entry relates, and it is the first such entry |
| Results.AgentColor | src/components/ResultsSection.tsx:42-51 | each of the four coloured agents gets its colour, and no other name does |
| Results.ReplaceFirst | src/components/ResultsSection.tsx:54 | only the first occurrence of the character is replaced; every other position is unchanged |
| Results.CapitaliseWordStarts | src/components/ResultsSection.tsx:54 | `replace(/\b\w/g, …)`: the same length, and every character that does not start a word is unchanged |
| Results.CapitaliseWordStartsCase | src/components/ResultsSection.tsx:54 | capitalising changes only letter case, and no word starts with a lower-case letter afterwards |
| Results.FormatAgentName | src/components/ResultsSection.tsx:53-55 | each label character: a space at the first underscore, an upper-case letter at a word start, otherwise the agent's character |
| Results.SingleUnderscoreBecomesSpace | src/components/ResultsSection.tsx:53-55 | an agent name with one underscore shows a space there and no underscore |
| Results.Rows | src/components/ResultsSection.tsx:228-233 | one card per candidate, in order, each with that candidate's preview |
| Results.BuildPanel | src/components/ResultsSection.tsx:170-320 | the count is the number of extracted candidates; each card holds its candidate and the first related preview of the list; the additional list is the whole list, or empty without one; the chip shows the agent's colour and formatted name; the analysis is the cleaned answer, with no markdown symbol, no padding and never three newlines in a row |
| Results.MatchedPreviewsAlsoListed | src/components/ResultsSection.tsx:290-317 | a preview offered on a candidate card also appears in the additional list |
| Results.SelectView | src/components/ResultsSection.tsx:125-172 | loading exactly when searching; then no-database, empty and populated, each exactly under its condition; the populated view holds the panel built from that search result |
| Results.ModalContent | src/components/ResultsSection.tsx:340-354 | the no-preview message exactly when there is no selection or its URL is empty; otherwise a frame on the resume URL, kept exactly when it already ends in `.pdf` and else with `.pdf` appended |
| Scenarios.StripKeepsSingleBullet | src/components/ResultsSection.tsx:33 | stripping symbols keeps a `-` bullet |
| Scenarios.StripKeepsNestedBullet | src/components/ResultsSection.tsx:33 | stripping symbols keeps both `-` of `- - x` |
| Scenarios.OneBulletRemoved | src/components/ResultsSection.tsx:34 | the bullet rule removes one marker per line and pass |
| Scenarios.LaterStepsKeep | src/components/ResultsSection.tsx:35-38 | the later steps leave `- x` and `x` alone |
| Scenarios.NumberedItemRemoved | src/components/ResultsSection.tsx:35 | `1. x` loses its number and becomes `x` |
| Scenarios.LinkBecomesLabel | src/components/ResultsSection.tsx:36 | `[a](b)` becomes its label `a` |
| Scenarios.LazyLinkLabel | src/components/ResultsSection.tsx:36 | the lazy label stops at the first `](`…`)`: `[a](b)](c)` becomes `a](c)` |
| Scenarios.CleanTakesOneBulletPerPass | src/components/ResultsSection.tsx:31-39 | `- - x` cleans to `- x`, which cleans to `x` |
| Scenarios.NewlineIsNotAWordBreak | src/components/ResultsSection.tsx:103-107 | a letter right after a line feed is lower-cased like one inside a word, so `JOHN\nSMITH` keys as `John\nsmith` |
| Scenarios.ReorderedNameNotRelated | src/components/ResultsSection.tsx:231-232 | `Delgado, Nadia (resume)` and `Nadia Delgado` are not related |
| Scenarios.SecondUnderscoreKept | src/components/ResultsSection.tsx:54 | `a_b_c` is shown as `A B_c` |
| RankedAnswer.AnswerHit | src/components/ResultsSection.tsx:71-72 | the ranked bold pattern matches `**1. Nadia Delgado**` whole, with the group `Nadia Delgado` |
| RankedAnswer.AnswerScans | src/components/ResultsSection.tsx:97-99 | its loop finds that one hit |
| RankedAnswer.BoldScans | src/components/ResultsSection.tsx:84 | the plain bold pattern finds nothing, because a digit follows `**` |
| RankedAnswer.StarLabelScans | src/components/ResultsSection.tsx:75 | the star-label pattern finds nothing |
| RankedAnswer.LineLabelScans | src/components/ResultsSection.tsx:78 | the line-start label pattern finds nothing: the line opens with `*` |
| RankedAnswer.BulletedScans | src/components/ResultsSection.tsx:81 | the bulleted pattern finds nothing: the `*` is followed by another `*`, not by white space |
| RankedAnswer.NumberedScans | src/components/ResultsSection.tsx:87 | the plain numbered pattern finds nothing: the line opens with `*`, not a digit |
| RankedAnswer.CapsScans | src/components/ResultsSection.tsx:90 | the capital pattern finds nothing |
| RankedAnswer.AnswerCaptures | src/components/ResultsSection.tsx:97-100 | the only capture is `Nadia Delgado` |
| RankedAnswer.AnswerKey | src/components/ResultsSection.tsx:103-107 | normalisation keeps `Nadia Delgado` |
| RankedAnswer.AnswerExtract | src/components/ResultsSection.tsx:67-117 | the extractor returns `["Nadia Delgado"]` |

## Left out

- Rendering. The JSX, icons, styling, the plural "candidate"/"candidates"
  label and the avatar initial are not modelled. The view and its contents
  are datatypes.
- React state. `useDisclosure`, `useState` and the modal's open/closed
  state are not modelled. The selected preview is a parameter of
  `Results.ModalContent`.
- The search service and the `SearchResult` payload arrive from outside.
  `matched_candidates` is carried but never read, as in the component.
- Results.AgentColor: a name such as `toString` or `constructor` reads a
  property of the object prototype in the source. That gives a truthy
  non-colour value. The model returns the default colour for every name
  other than the four coloured agents.
- Text.Lower: only ASCII letters change case. `toLowerCase` and
  `toUpperCase` map all of Unicode. Captured names are ASCII letters and
  whitespace, so this is exact for the extractor. It is not exact for
  arbitrary preview names in `Results.Related`.
- Strings are sequences of Unicode scalar values, not UTF-16 code units.
  Lengths differ for characters outside the Basic Multilingual Plane.
- Cleaner.Clean: the contract states properties of the cleaned text, not
  the text itself. Each step's matches are characterised both ways
  (`BulletFinds`, `NumberFinds`, `LinkFinds`, `BlankLinesFinds`) and the
  global replace is characterised by `ReplaceCopies` and `ReplaceLeftmost`;
  the exact output is stated for concrete inputs in `Scenarios`.
- The last entry of the pattern list at lines 92-93 is a comment with no
  pattern behind it, so the model runs seven patterns.

=== FILE: cleaner.dfy ===
/**
 `cleanAIAnswer`: six rewriting steps applied in order to the free-text
 answer before it is displayed.

   1. delete every character of ``*_`#~>``                (`/[*_`#~>]/g`)
   2. delete a line-leading bullet                        (`/^\s*[-*+] /gm`)
   3. delete a line-leading list number                   (`/^\s*\d+\.\s+/gm`)
   4. replace `[label](target)` by `label`                (`/\[(.*?)\]\(.*?\)/g`)
   5. replace every run of two or more `\n` by `\n\n`     (`/\n{2,}/g`)
   6. `trim()`

 Steps 2 to 5 are `String.prototype.replace` with a global regular
 expression: the text is searched left to right from the end of the last
 match, unmatched characters are copied, and each match is replaced. A
 line anchor `^` is matched against the text of that step, not the output.
 */
module Cleaner {
  import opened Text

  /** The characters deleted by step 1. */
  predicate IsMarkdownSymbol(c: char) {
    c == '*' || c == '_' || c == '`' || c == '#' || c == '~' || c == '>'
  }

  /** Step 1. */
  function StripSymbols(s: string): (r: string)
    ensures forall c :: c in r <==> c in s && !IsMarkdownSymbol(c)
    decreases |s|
  {
    if |s| == 0 then []
    else (if IsMarkdownSymbol(s[0]) then [] else [s[0]]) + StripSymbols(s[1..])
  }

  /** Text without the symbols is left as it is by step 1. */
  lemma {:induction false} StripKeepsPlain(s: string)
    requires forall i :: 0 <= i < |s| ==> !IsMarkdownSymbol(s[i])
    ensures StripSymbols(s) == s
    decreases |s|
  {
    if |s| > 0 {
      StripKeepsPlain(s[1..]);
      SliceCons(s, 0, |s|);
    }
  }

  /** Step 1 keeps the order of what it keeps: it distributes over
      concatenation, so the result is the input with the symbols left out. */
  lemma {:induction false} StripSymbolsAppend(a: string, b: string)
    ensures StripSymbols(a + b) == StripSymbols(a) + StripSymbols(b)
    decreases |a|
  {
    if |a| == 0 {
      assert a + b == b;
    } else {
      StripSymbolsAppend(a[1..], b);
      var kept := if IsMarkdownSymbol(a[0]) then [] else [a[0]];
      ConcatHead(a, b);
      ConcatAssoc(kept, StripSymbols(a[1..]), StripSymbols(b));
    }
  }

  /** On one character step 1 drops a symbol and keeps anything else. */
  lemma StripSymbolsOne(c: char)
    ensures StripSymbols([c]) == if IsMarkdownSymbol(c) then [] else [c]
  {
    assert [c][1..] == [];
  }

  /** Step 1 keeps every other character as often as it occurs. */
  lemma {:induction false} StripSymbolsCounts(s: string)
    ensures forall c :: multiset(StripSymbols(s))[c] == if IsMarkdownSymbol(c) then 0 else multiset(s)[c]
    decreases |s|
  {
    if |s| > 0 {
      StripSymbolsCounts(s[1..]);
      assert s == [s[0]] + s[1..];
      assert multiset(s) == multiset([s[0]]) + multiset(s[1..]);
    }
  }

  /** The regular expressions of steps 2 to 5. */
  datatype Rule = Bullet | NumberedItem | Link | BlankLines

  /** A match that ends (exclusively) at `end` and is replaced by `replacement`. */
  datatype Edit = Edit(end: nat, replacement: string)

  /** `s[p..e]` is optional whitespace, one of `-*+`, and a space. */
  predicate BulletMarker(s: string, p: nat, e: nat)
    requires p <= e <= |s|
  {
    && p + 2 <= e
    && (s[e - 2] == '-' || s[e - 2] == '*' || s[e - 2] == '+')
    && s[e - 1] == ' '
    && forall i :: p <= i < e - 2 ==> IsSpace(s[i])
  }

  /** `s[p..e]` is whitespace `s[p..q]`, digits `s[q..d]`, a dot, and whitespace. */
  predicate NumberMarkerAt(s: string, p: nat, q: nat, d: nat, e: nat)
    requires e <= |s|
  {
    && p <= q < d && d + 1 < e
    && s[d] == '.'
    && (forall i :: p <= i < q ==> IsSpace(s[i]))
    && (forall i :: q <= i < d ==> IsDigit(s[i]))
    && (forall i :: d < i < e ==> IsSpace(s[i]))
  }

  ghost predicate NumberMarker(s: string, p: nat, e: nat)
    requires e <= |s|
  {
    exists q: nat, d: nat :: NumberMarkerAt(s, p, q, d, e)
  }

  /** `/^\s*[-*+] /m` at `p`. The greedy `\s*` cannot give back a character
      that `[-*+]` would accept, so the longest whitespace run decides. */
  function BulletAt(s: string, p: nat): (r: Option<nat>)
    requires p <= |s|
    ensures r.Some? ==> AtLineStart(s, p) && p < r.value <= |s| && BulletMarker(s, p, r.value)
  {
    if !AtLineStart(s, p) then None
    else
      var q := RunEnd(s, p, Space);
      if q + 1 < |s| && (s[q] == '-' || s[q] == '*' || s[q] == '+') && s[q + 1] == ' '
      then Some(q + 2)
      else None
  }

  /** `/^\s*\d+\.\s+/m` at `p`; every run is greedy and none can give back a
      character the next part would accept. */
  function NumberAt(s: string, p: nat): (r: Option<nat>)
    requires p <= |s|
    ensures r.Some? ==> AtLineStart(s, p) && p < r.value <= |s| && NumberMarker(s, p, r.value)
    ensures r.Some? ==> r.value == |s| || !IsSpace(s[r.value])
  {
    if !AtLineStart(s, p) then None
    else
      var q := RunEnd(s, p, Space);
      var d := RunEnd(s, q, Digit);
      if q < d < |s| && s[d] == '.' then
        var e := RunEnd(s, d + 1, Space);
        if e > d + 1 then
          assert NumberMarkerAt(s, p, q, d, e);
          Some(e)
        else None
      else None
  }

  /** The lazy `.*?\)` of a link target: the first `)` at or after `i`,
      unless a line terminator (which `.` does not match) comes first. */
  function CloseParen(s: string, i: nat): (r: Option<nat>)
    requires i <= |s|
    ensures r.Some? ==> i <= r.value < |s| && s[r.value] == ')'
    ensures r.Some? ==> forall k :: i <= k < r.value ==> s[k] != ')' && !IsLineTerminator(s[k])
    decreases |s| - i
  {
    if i == |s| || IsLineTerminator(s[i]) then None
    else if s[i] == ')' then Some(i)
    else CloseParen(s, i + 1)
  }

  /** `s[p..e]` is `[label](target)` with the label `s[p + 1..j]`; neither
      part spans a line, and the target holds no `)`. */
  predicate LinkShape(s: string, p: nat, j: nat, e: nat)
    requires e <= |s|
  {
    && p < j && j + 2 < e
    && s[p] == '[' && s[j] == ']' && s[j + 1] == '(' && s[e - 1] == ')'
    && (forall k :: p < k < j ==> !IsLineTerminator(s[k]))
    && (forall k :: j + 2 <= k < e - 1 ==> s[k] != ')' && !IsLineTerminator(s[k]))
  }

  /** The lazy `(.*?)\]\(.*?\)` once the label has grown to end at `j`:
      the label is extended one character at a time until `](`…`)` follows. */
  function LabelFrom(s: string, p: nat, j: nat): (r: Option<(nat, nat)>)
    requires p < j <= |s| && s[p] == '['
    requires forall k :: p < k < j ==> !IsLineTerminator(s[k])
    ensures r.Some? ==> j <= r.value.0 && r.value.1 <= |s| && LinkShape(s, p, r.value.0, r.value.1)
    decreases |s| - j
  {
    if j == |s| || IsLineTerminator(s[j]) then None
    else if s[j] == ']' && j + 1 < |s| && s[j + 1] == '(' && CloseParen(s, j + 2).Some? then
      Some((j, CloseParen(s, j + 2).value + 1))
    else LabelFrom(s, p, j + 1)
  }

  /** `/\[(.*?)\]\(.*?\)/` at `p`: the label end and the match end. */
  function LinkAt(s: string, p: nat): (r: Option<(nat, nat)>)
    requires p <= |s|
    ensures r.Some? ==> r.value.1 <= |s| && LinkShape(s, p, r.value.0, r.value.1)
  {
    if p < |s| && s[p] == '[' then LabelFrom(s, p, p + 1) else None
  }

  /** `/\n{2,}/` at `p`: the end of the newline run, when it has two or more. */
  function BlankLinesAt(s: string, p: nat): (r: Option<nat>)
    requires p <= |s|
    ensures r.Some? ==> p + 2 <= r.value <= |s|
    ensures r.Some? ==> (forall i :: p <= i < r.value ==> s[i] == '\n')
    ensures r.Some? ==> r.value == |s| || s[r.value] != '\n'
  {
    var e := RunEnd(s, p, Newline);
    if e >= p + 2 then Some(e) else None
  }

  /** The bullet step misses no bullet: at a line start, whitespace, one
      of `-*+` and a space are matched, up to and including that space. */
  lemma BulletFinds(s: string, p: nat, e: nat)
    requires p <= e <= |s|
    requires AtLineStart(s, p) && BulletMarker(s, p, e)
    ensures BulletAt(s, p) == Some(e)
    ensures RuleAt(Bullet, s, p) == Some(Edit(e, []))
  {
    RunEndAt(s, p, Space, e - 2);
  }

  /** The number step misses no list number: at a line start, whitespace,
      digits, a dot and whitespace are matched up to the end of that last
      whitespace. */
  lemma NumberFinds(s: string, p: nat, q: nat, d: nat, e: nat)
    requires e <= |s| && NumberMarkerAt(s, p, q, d, e)
    requires AtLineStart(s, p)
    requires e == |s| || !IsSpace(s[e])
    ensures NumberAt(s, p) == Some(e)
    ensures RuleAt(NumberedItem, s, p) == Some(Edit(e, []))
  {
    RunEndAt(s, p, Space, q);
    RunEndAt(s, q, Digit, d);
    RunEndAt(s, d + 1, Space, e);
  }

  /** The lazy target ends at the first `)` when no line terminator comes
      before it. */
  lemma {:induction false} CloseParenFinds(s: string, i: nat, c: nat)
    requires i <= c < |s| && s[c] == ')'
    requires forall k :: i <= k < c ==> s[k] != ')' && !IsLineTerminator(s[k])
    ensures CloseParen(s, i) == Some(c)
    decreases c - i
  {
    if i < c {
      CloseParenFinds(s, i + 1, c);
    }
  }

  /** Growing the label from `j0` reaches a link no later than the label
      end `j` of any link at `p`. */
  lemma {:induction false} LabelFromFinds(s: string, p: nat, j0: nat, j: nat, e: nat)
    requires e <= |s| && LinkShape(s, p, j, e)
    requires p < j0 <= j
    ensures LabelFrom(s, p, j0).Some? && LabelFrom(s, p, j0).value.0 <= j
    decreases j - j0
  {
    if j0 == j {
      CloseParenFinds(s, j + 2, e - 1);
    } else if !(s[j0] == ']' && j0 + 1 < |s| && s[j0 + 1] == '(' && CloseParen(s, j0 + 2).Some?) {
      LabelFromFinds(s, p, j0 + 1, j, e);
    }
  }

  /** The link step misses no link, and its lazy label is the shortest:
      where `[label](target)` starts at `p` on one line, a link is matched
      there whose label ends no later. With the shape that `LinkAt` states
      of its result, its label end is the least one possible, and the
      edit replaces exactly that match by exactly that label. */
  lemma LinkFinds(s: string, p: nat, j: nat, e: nat)
    requires e <= |s| && LinkShape(s, p, j, e)
    ensures LinkAt(s, p).Some? && LinkAt(s, p).value.0 <= j
    ensures RuleAt(Link, s, p) == Some(Edit(LinkAt(s, p).value.1, s[p + 1..LinkAt(s, p).value.0]))
  {
    LabelFromFinds(s, p, p + 1, j, e);
  }

  /** A whole run of two or more line feeds is matched by step 5. */
  lemma BlankLinesFinds(s: string, p: nat, e: nat)
    requires p + 2 <= e <= |s|
    requires forall i :: p <= i < e ==> s[i] == '\n'
    requires e == |s| || s[e] != '\n'
    ensures BlankLinesAt(s, p) == Some(e)
    ensures RuleAt(BlankLines, s, p) == Some(Edit(e, "\n\n"))
  {
    RunEndAt(s, p, Newline, e);
  }

  /** The match of `rule` at position `p`, if any, with its replacement. */
  function RuleAt(rule: Rule, s: string, p: nat): (r: Option<Edit>)
    requires p < |s|
    ensures r.Some? ==> p < r.value.end <= |s| && |r.value.replacement| <= r.value.end - p
    ensures r.Some? ==> forall c :: c in r.value.replacement ==> c in s || c == '\n'
    ensures r.Some? && rule.Bullet? ==> r.value.replacement == [] && AtLineStart(s, p) && BulletMarker(s, p, r.value.end)
    ensures r.Some? && rule.NumberedItem? ==> r.value.replacement == [] && AtLineStart(s, p) && NumberMarker(s, p, r.value.end)
    ensures r.Some? && rule.Link? ==>
      exists j: nat :: LinkShape(s, p, j, r.value.end) && r.value.replacement == s[p + 1..j] && LinkAt(s, p) == Some((j, r.value.end))
    ensures r.Some? && rule.Bullet? ==> BulletAt(s, p) == Some(r.value.end)
    ensures r.Some? && rule.NumberedItem? ==> NumberAt(s, p) == Some(r.value.end)
    ensures r.Some? && rule.BlankLines? ==> r.value.replacement == "\n\n" && BlankLinesAt(s, p) == Some(r.value.end)
    ensures r.Some? && rule.BlankLines? ==> r.value.end == |s| || s[r.value.end] != '\n'
  {
    match rule
    case Bullet =>
      (match BulletAt(s, p) case Some(e) => Some(Edit(e, [])) case None => None)
    case NumberedItem =>
      (match NumberAt(s, p) case Some(e) => Some(Edit(e, [])) case None => None)
    case Link =>
      (match LinkAt(s, p)
       case Some((j, e)) =>
         assert forall k :: p + 1 <= k < j ==> s[k] in s;
         Some(Edit(e, s[p + 1..j]))
       case None => None)
    case BlankLines =>
      (match BlankLinesAt(s, p) case Some(e) => Some(Edit(e, "\n\n")) case None => None)
  }

  /** `s.replace(regex, …)` from `p` on: copy what no match covers,
      replace each match, resume after it. */
  function ReplaceFrom(rule: Rule, s: string, p: nat): (r: string)
    requires p <= |s|
    ensures |r| <= |s| - p
    ensures forall c :: c in r ==> c in s || c == '\n'
    ensures (forall q :: p <= q < |s| ==> RuleAt(rule, s, q).None?) ==> r == s[p..]
    decreases |s| - p
  {
    if p == |s| then []
    else
      match RuleAt(rule, s, p)
      case Some(edit) => edit.replacement + ReplaceFrom(rule, s, edit.end)
      case None => [s[p]] + ReplaceFrom(rule, s, p + 1)
  }

  /** Between matches the text is copied unchanged: with no match in
      `[p, m)`, the output from `p` is `s[p..m]` and then the output from `m`. */
  lemma {:induction false} ReplaceCopies(rule: Rule, s: string, p: nat, m: nat)
    requires p <= m <= |s|
    requires forall q :: p <= q < m ==> RuleAt(rule, s, q).None?
    ensures ReplaceFrom(rule, s, p) == s[p..m] + ReplaceFrom(rule, s, m)
    decreases m - p, 1
  {
    if p < m {
      ReplaceCopiesNext(rule, s, p, m);
    } else {
      assert s[p..m] == [];
    }
  }

  /** The step of `ReplaceCopies`: the character at `p` is copied. */
  lemma {:induction false} ReplaceCopiesNext(rule: Rule, s: string, p: nat, m: nat)
    requires p < m <= |s|
    requires forall q :: p <= q < m ==> RuleAt(rule, s, q).None?
    ensures ReplaceFrom(rule, s, p) == s[p..m] + ReplaceFrom(rule, s, m)
    decreases m - p, 0
  {
    ReplaceCopiesOne(rule, s, p);
    ReplaceCopies(rule, s, p + 1, m);
    SliceCons(s, p, m);
    CopyRegroup(ReplaceFrom(rule, s, p), ReplaceFrom(rule, s, p + 1), ReplaceFrom(rule, s, m), s[p], s[p + 1..m], s[p..m]);
  }

  /** The regrouping behind `ReplaceCopiesNext`, away from the contracts
      of the functions involved. */
  lemma CopyRegroup(out: string, outNext: string, outEnd: string, c: char, copied: string, slice: string)
    requires out == [c] + outNext && outNext == copied + outEnd && slice == [c] + copied
    ensures out == slice + outEnd
  {
    ConcatAssoc([c], copied, outEnd);
  }

  lemma ReplaceCopiesOne(rule: Rule, s: string, p: nat)
    requires p < |s| && RuleAt(rule, s, p).None?
    ensures ReplaceFrom(rule, s, p) == [s[p]] + ReplaceFrom(rule, s, p + 1)
  {
  }

  /** The leftmost match at or after `p` is replaced by its edit and the
      search resumes where that match ends, so matches never overlap. */
  lemma ReplaceLeftmost(rule: Rule, s: string, p: nat, m: nat)
    requires p <= m < |s|
    requires forall q :: p <= q < m ==> RuleAt(rule, s, q).None?
    requires RuleAt(rule, s, m).Some?
    ensures var edit := RuleAt(rule, s, m).value;
      ReplaceFrom(rule, s, p) == s[p..m] + edit.replacement + ReplaceFrom(rule, s, edit.end)
  {
    var edit := RuleAt(rule, s, m).value;
    ReplaceCopies(rule, s, p, m);
    ReplaceAtMatch(rule, s, m);
    MatchRegroup(ReplaceFrom(rule, s, p), s[p..m], ReplaceFrom(rule, s, m), edit.replacement, ReplaceFrom(rule, s, edit.end));
  }

  lemma ReplaceAtMatch(rule: Rule, s: string, m: nat)
    requires m < |s| && RuleAt(rule, s, m).Some?
    ensures var edit := RuleAt(rule, s, m).value;
      ReplaceFrom(rule, s, m) == edit.replacement + ReplaceFrom(rule, s, edit.end)
  {
  }

  /** The regrouping behind `ReplaceLeftmost`. */
  lemma MatchRegroup(out: string, copied: string, outMatch: string, replacement: string, outEnd: string)
    requires out == copied + outMatch && outMatch == replacement + outEnd
    ensures out == copied + replacement + outEnd
  {
    ConcatAssoc(copied, replacement, outEnd);
  }

  /** `s.replace(regex, …)` over the whole text. */
  function ReplaceAll(rule: Rule, s: string): (r: string)
    ensures |r| <= |s|
    ensures (forall q :: 0 <= q < |s| ==> RuleAt(rule, s, q).None?) ==> r == s
  {
    ReplaceFrom(rule, s, 0)
  }

  /** No three consecutive line feeds. */
  predicate NoTripleNewline(s: string) {
    forall i :: 0 <= i < |s| - 2 ==> !(s[i] == '\n' && s[i + 1] == '\n' && s[i + 2] == '\n')
  }

  lemma NoTriplePrepend(c: char, t: string)
    requires NoTripleNewline(t)
    requires c == '\n' ==> |t| < 2 || t[0] != '\n' || t[1] != '\n'
    ensures NoTripleNewline([c] + t)
  {
    var u := [c] + t;
    forall i | 0 <= i < |u| - 2
      ensures !(u[i] == '\n' && u[i + 1] == '\n' && u[i + 2] == '\n')
    {
      if i > 0 {
        assert u[i..i + 3] == t[i - 1..i + 2];
      }
    }
  }

  /** Step 5 leaves no run of three line feeds, and what it produces from
      a position that does not hold a line feed starts with that character. */
  lemma {:induction false} CollapseNoTriple(s: string, p: nat)
    requires p <= |s|
    ensures NoTripleNewline(ReplaceFrom(BlankLines, s, p))
    ensures p < |s| && s[p] != '\n' ==> ReplaceFrom(BlankLines, s, p)[0] == s[p]
    decreases |s| - p, 1
  {
    if p < |s| {
      if BlankLinesAt(s, p).Some? {
        CollapseAtBlank(s, p);
      } else {
        CollapseAtOther(s, p);
      }
    }
  }

  /** A run of two or more line feeds becomes exactly two. */
  lemma {:induction false} CollapseAtBlank(s: string, p: nat)
    requires p < |s| && BlankLinesAt(s, p).Some?
    ensures NoTripleNewline(ReplaceFrom(BlankLines, s, p))
    decreases |s| - p, 0
  {
    var e := BlankLinesAt(s, p).value;
    BlankLinesStep(s, p);
    CollapseNoTriple(s, e);
    NoTriplePrependPair(ReplaceFrom(BlankLines, s, e));
  }

  /** Step 5 at a run of line feeds writes two and goes on after the run. */
  lemma BlankLinesStep(s: string, p: nat)
    requires p < |s| && BlankLinesAt(s, p).Some?
    ensures var e := BlankLinesAt(s, p).value;
      ReplaceFrom(BlankLines, s, p) == "\n\n" + ReplaceFrom(BlankLines, s, e)
  {
  }

  lemma NoTriplePrependPair(rest: string)
    requires NoTripleNewline(rest)
    requires |rest| == 0 || rest[0] != '\n'
    ensures NoTripleNewline("\n\n" + rest)
  {
    NoTriplePrepend('\n', rest);
    NoTriplePrepend('\n', "\n" + rest);
    assert "\n\n" + rest == ['\n'] + ("\n" + rest);
  }

  /** Any other character is copied. */
  lemma {:induction false} CollapseAtOther(s: string, p: nat)
    requires p < |s| && BlankLinesAt(s, p).None?
    ensures NoTripleNewline(ReplaceFrom(BlankLines, s, p))
    ensures ReplaceFrom(BlankLines, s, p)[0] == s[p]
    decreases |s| - p, 0
  {
    var rest := ReplaceFrom(BlankLines, s, p + 1);
    assert ReplaceFrom(BlankLines, s, p) == [s[p]] + rest;
    CollapseNoTriple(s, p + 1);
    if s[p] == '\n' {
      // a lone line feed: the next character is not one
      assert RunEnd(s, p, Newline) < p + 2;
    }
    NoTriplePrepend(s[p], rest);
  }

  lemma SliceKeepsNoTriple(s: string, a: nat, b: nat)
    requires a <= b <= |s|
    requires NoTripleNewline(s)
    ensures NoTripleNewline(s[a..b])
  {
    var t := s[a..b];
    forall i | 0 <= i < |t| - 2
      ensures !(t[i] == '\n' && t[i + 1] == '\n' && t[i + 2] == '\n')
    {
      assert t[i] == s[a + i] && t[i + 1] == s[a + i + 1] && t[i + 2] == s[a + i + 2];
    }
  }

  lemma TrimKeepsNoTriple(s: string)
    requires NoTripleNewline(s)
    ensures NoTripleNewline(Trim(s))
  {
    var r := Trim(s);
    var a: nat :| TrimmedAt(r, s, a);
    SliceKeepsNoTriple(s, a, a + |r|);
  }

  lemma TrimKeepsChars(s: string)
    ensures forall c :: c in Trim(s) ==> c in s
  {
    var r := Trim(s);
    var a: nat :| TrimmedAt(r, s, a);
    forall c | c in r ensures c in s {
      var i :| 0 <= i < |r| && r[i] == c;
      assert s[a + i] == c;
    }
  }

  /** `cleanAIAnswer`. */
  function Clean(text: string): (r: string)
    ensures forall c :: c in r ==> !IsMarkdownSymbol(c)
    ensures forall c :: c in r ==> c in text || c == '\n'
    ensures |r| > 0 ==> !IsSpace(r[0]) && !IsSpace(r[|r| - 1])
    ensures NoTripleNewline(r)
  {
    var s1 := StripSymbols(text);
    var s2 := ReplaceAll(Bullet, s1);
    var s3 := ReplaceAll(NumberedItem, s2);
    var s4 := ReplaceAll(Link, s3);
    var s5 := ReplaceAll(BlankLines, s4);
    CollapseNoTriple(s4, 0);
    TrimKeepsNoTriple(s5);
    TrimKeepsChars(s5);
    Trim(s5)
  }
}

=== FILE: extractor.dfy ===
/**
 `extractCandidatesFromAnswer`: seven regular expressions are run in a
 fixed order over the answer, each with the global `exec` loop; every
 capture is trimmed and normalised to title case, and kept when it is
 longer than two characters and was not kept before.
 */
module Extractor {
  import opened Text
  import opened Names

  /** The seven patterns, in the order they run. */
  datatype Pattern =
    | BoldRanked    // /\*\*(?:\d+\.\s*)?(NAME)\*\*/g
    | StarLabel     // /\*(NAME):\*/g
    | LineLabel     // /^(NAME):/gm
    | Bulleted      // /^[*-]\s+(NAME)/gm
    | Bold          // /\*\*(NAME)\*\*/g
    | NumberedLine  // /^\d+\.\s+(NAME)/gm
    | AllCaps       // /\b(CAPS)\b/g
  {
    /** The patterns anchored with `^` in multiline mode. */
    predicate LineAnchored() {
      LineLabel? || Bulleted? || NumberedLine?
    }
  }

  const Patterns: seq<Pattern> := [BoldRanked, StarLabel, LineLabel, Bulleted, Bold, NumberedLine, AllCaps]

  /** One match: it covers `s[start..end]` and its group is `s[gStart..gEnd]`. */
  datatype Hit = Hit(start: nat, end: nat, gStart: nat, gEnd: nat)

  predicate HitIn(h: Hit, s: string) {
    h.start <= h.gStart < h.gEnd <= h.end <= |s|
  }

  /** `s[q..g]` is `\d+\.\s*` as greedy matching takes it: the digits
      `s[q..d]`, a dot, and all the whitespace after it. */
  predicate RankAt(s: string, q: nat, d: nat, g: nat)
    requires g <= |s|
  {
    && q < d < g
    && (forall i :: q <= i < d ==> IsDigit(s[i]))
    && s[d] == '.'
    && (forall i :: d < i < g ==> IsSpace(s[i]))
    && (g == |s| || !IsSpace(s[g]))
  }

  ghost predicate HasRank(s: string, q: nat, g: nat)
    requires g <= |s|
  {
    exists d :: RankAt(s, q, d, g)
  }

  /** The optional `(?:\d+\.\s*)?` after the opening `**`: where the name
      must start. When the prefix is there and no name follows it, skipping
      the prefix cannot help, because the name would have to start on a digit. */
  function RankEnd(s: string, q: nat): (g: nat)
    requires q <= |s|
    ensures q <= g <= |s|
    ensures g != q ==> exists d :: RankAt(s, q, d, g)
  {
    var d := RunEnd(s, q, Digit);
    if q < d < |s| && s[d] == '.' then
      var g := RunEnd(s, d + 1, Space);
      assert RankAt(s, q, d, g);
      g
    else q
  }

  /** A rank prefix that is there is taken whole. */
  lemma RankEndFinds(s: string, q: nat, d: nat, g: nat)
    requires g <= |s| && RankAt(s, q, d, g)
    ensures RankEnd(s, q) == g
  {
    RunEndAt(s, q, Digit, d);
    RunEndAt(s, d + 1, Space, g);
  }

  /** `s[p..g]` is `[*-]\s+` as greedy matching takes it. */
  predicate BulletLead(s: string, p: nat, g: nat)
    requires g <= |s|
  {
    && p + 1 < g
    && (s[p] == '*' || s[p] == '-')
    && (forall i :: p < i < g ==> IsSpace(s[i]))
    && (g == |s| || !IsSpace(s[g]))
  }

  /** `s[p..g]` is `\d+\.\s+` as greedy matching takes it. */
  predicate NumberLead(s: string, p: nat, d: nat, g: nat)
    requires g <= |s|
  {
    RankAt(s, p, d, g) && d + 1 < g
  }

  function AsHit(m: Option<(nat, nat)>, p: nat, g: nat): (r: Option<Hit>) {
    match m
    case Some((e, end)) => Some(Hit(p, end, g, e))
    case None => None
  }

  /** Where the capture group starts when the part of `pat` before the
      group matches at `p`. */
  function Lead(pat: Pattern, s: string, p: nat): (r: Option<nat>)
    requires p <= |s|
    ensures r.Some? ==> p <= r.value <= |s|
    ensures r.Some? && pat.LineAnchored() ==> AtLineStart(s, p)
    ensures pat.BoldRanked? || pat.Bold? ==> (r.Some? <==> p + 2 <= |s| && s[p] == '*' && s[p + 1] == '*')
    ensures pat.Bold? && r.Some? ==> r.value == p + 2
    ensures pat.BoldRanked? && r.Some? && r.value != p + 2 ==> HasRank(s, p + 2, r.value)
    ensures pat.StarLabel? ==> (r.Some? <==> p < |s| && s[p] == '*') && (r.Some? ==> r.value == p + 1)
    ensures pat.LineLabel? ==> (r.Some? <==> AtLineStart(s, p)) && (r.Some? ==> r.value == p)
    ensures pat.Bulleted? && r.Some? ==> BulletLead(s, p, r.value)
    ensures pat.NumberedLine? && r.Some? ==> exists d :: NumberLead(s, p, d, r.value)
    ensures pat.AllCaps? ==> r == Some(p)
  {
    match pat
    case BoldRanked =>
      if p + 2 <= |s| && s[p] == '*' && s[p + 1] == '*' then Some(RankEnd(s, p + 2)) else None
    case StarLabel =>
      if p < |s| && s[p] == '*' then Some(p + 1) else None
    case LineLabel =>
      if AtLineStart(s, p) then Some(p) else None
    case Bulleted =>
      if AtLineStart(s, p) && p < |s| && (s[p] == '*' || s[p] == '-') then
        var g := RunEnd(s, p + 1, Space);
        if g > p + 1 then
          assert BulletLead(s, p, g);
          Some(g)
        else None
      else None
    case Bold =>
      if p + 2 <= |s| && s[p] == '*' && s[p + 1] == '*' then Some(p + 2) else None
    case NumberedLine =>
      if AtLineStart(s, p) then
        var d := RunEnd(s, p, Digit);
        if p < d < |s| && s[d] == '.' then
          var g := RunEnd(s, d + 1, Space);
          if g > d + 1 then
            assert NumberLead(s, p, d, g);
            Some(g)
          else None
        else None
      else None
    case AllCaps => Some(p)
  }

  /** The lead-ins miss nothing: `**` and a rank, a line-leading bullet
      and a line-leading number are each consumed whole. */
  lemma LeadFinds(pat: Pattern, s: string, p: nat, d: nat, g: nat)
    requires p <= g <= |s|
    requires pat.BoldRanked? ==> p + 2 <= |s| && s[p] == '*' && s[p + 1] == '*' && RankAt(s, p + 2, d, g)
    requires pat.Bulleted? ==> AtLineStart(s, p) && BulletLead(s, p, g)
    requires pat.NumberedLine? ==> AtLineStart(s, p) && NumberLead(s, p, d, g)
    requires pat.BoldRanked? || pat.Bulleted? || pat.NumberedLine?
    ensures Lead(pat, s, p) == Some(g)
  {
    match pat
    case BoldRanked => RankEndFinds(s, p + 2, d, g);
    case Bulleted => RunEndAt(s, p + 1, Space, g);
    case NumberedLine =>
      RunEndAt(s, p, Digit, d);
      RunEndAt(s, d + 1, Space, g);
  }

  /** What must follow the title name in `pat`. */
  function Tail(pat: Pattern): Follow {
    match pat
    case BoldRanked => TwoStars
    case StarLabel => ColonStar
    case LineLabel => Colon
    case Bold => TwoStars
    case _ => Anything
  }

  /** The match of `pat` that starts at `p`, if any. */
  function MatchAt(pat: Pattern, s: string, p: nat): (r: Option<Hit>)
    requires p <= |s|
    ensures r.Some? ==> r.value.start == p && HitIn(r.value, s)
    ensures r.Some? && pat.AllCaps? ==> r.value.gStart == p && r.value.gEnd == r.value.end
    ensures r.Some? && !pat.AllCaps? ==>
      Lead(pat, s, p) == Some(r.value.gStart) && FollowEnd(s, r.value.gEnd, Tail(pat)) == Some(r.value.end)
  {
    if pat.AllCaps? then
      match CapsNameAt(s, p)
      case Some(e) => Some(Hit(p, e, p, e))
      case None => None
    else
      match Lead(pat, s, p)
      case Some(g) => AsHit(TitleNameAt(s, g, Tail(pat)), p, g)
      case None => None
  }

  /** What a match captures has the shape of its pattern's group, and the
      anchored patterns match only at the start of a line. */
  lemma MatchShape(pat: Pattern, s: string, p: nat)
    requires p <= |s| && MatchAt(pat, s, p).Some?
    ensures var h := MatchAt(pat, s, p).value;
      if pat.AllCaps? then CapsNameIn(s, h.gStart, h.gEnd) else TitleNameIn(s, h.gStart, h.gEnd)
    ensures pat.LineAnchored() ==> AtLineStart(s, p)
  {
  }

  /** The outcome of `pat` at every position `0..|s|` of the answer. */
  function MatchTable(pat: Pattern, s: string): (table: seq<Option<Hit>>)
    ensures |table| == |s| + 1
    ensures forall q :: 0 <= q < |table| ==> table[q] == MatchAt(pat, s, q)
  {
    seq(|s| + 1, q requires 0 <= q <= |s| => MatchAt(pat, s, q))
  }

  /** Every entry of the table is a match starting at its own index and
      ending within the text. */
  predicate TableOk(table: seq<Option<Hit>>) {
    forall q :: 0 <= q < |table| && table[q].Some? ==>
      table[q].value.start == q && q < table[q].value.end < |table|
  }

  /** No match starts anywhere in `[a, b)`. */
  predicate NoHitIn(table: seq<Option<Hit>>, a: nat, b: nat) {
    forall q :: a <= q < b && q < |table| ==> table[q].None?
  }

  /** No match starts between where the loop resumes before hit `i` (at
      `p` for the first hit) and the start of hit `i` (the end of the text
      after the last hit). */
  predicate SkippedNothing(table: seq<Option<Hit>>, r: seq<Hit>, p: nat, i: nat)
    requires i <= |r|
  {
    NoHitIn(table, if i == 0 then p else r[i - 1].end, if i < |r| then r[i].start else |table|)
  }

  /** The `while ((match = pattern.exec(answer)) !== null)` loop from
      `lastIndex == p`: each hit is the leftmost match at or after the end
      of the one before, and the loop stops when none is left. */
  function ExecLoop(table: seq<Option<Hit>>, p: nat): (r: seq<Hit>)
    requires TableOk(table) && p < |table|
    ensures forall i :: 0 <= i < |r| ==> p <= r[i].start < |table| && table[r[i].start] == Some(r[i])
    ensures forall i :: 0 < i < |r| ==> r[i - 1].end <= r[i].start
    ensures forall i :: 0 <= i <= |r| ==> SkippedNothing(table, r, p, i)
    decreases |table| - p
  {
    match table[p]
    case Some(h) =>
      var rest := ExecLoop(table, h.end);
      var r := [h] + rest;
      assert forall i :: 0 < i < |r| ==> r[i] == rest[i - 1];
      assert forall i :: 0 < i <= |r| ==> SkippedNothing(table, rest, h.end, i - 1) ==> SkippedNothing(table, r, p, i);
      r
    case None =>
      if p + 1 == |table| then [] else
        var r := ExecLoop(table, p + 1);
        assert SkippedNothing(table, r, p + 1, 0) ==> SkippedNothing(table, r, p, 0);
        assert forall i :: 0 < i <= |r| ==> SkippedNothing(table, r, p + 1, i) ==> SkippedNothing(table, r, p, i);
        r
  }

  /** Every match of `pat` in the answer, in the order `exec` returns them:
      real matches, in increasing non-overlapping order, and no match was
      passed over between one hit and the next. */
  function Scan(pat: Pattern, s: string): (r: seq<Hit>)
    ensures forall i :: 0 <= i < |r| ==> r[i].start <= |s| && MatchAt(pat, s, r[i].start) == Some(r[i])
    ensures forall i :: 0 < i < |r| ==> r[i - 1].end <= r[i].start
    ensures forall i :: 0 <= i <= |r| ==> SkippedNothing(MatchTable(pat, s), r, 0, i)
  {
    var table := MatchTable(pat, s);
    ExecLoop(table, 0)
  }

  /** A position `q` where a match starts, at or after where the loop
      resumes before hit `i`, lies inside hit `i` or a later one. */
  lemma {:induction false} CoveredFrom(table: seq<Option<Hit>>, p: nat, q: nat, i: nat)
    requires TableOk(table) && p < |table|
    requires q < |table| && table[q].Some?
    requires i <= |ExecLoop(table, p)|
    requires (if i == 0 then p else ExecLoop(table, p)[i - 1].end) <= q
    ensures exists j :: (i <= j < |ExecLoop(table, p)|
      && ExecLoop(table, p)[j].start <= q < ExecLoop(table, p)[j].end)
    decreases |ExecLoop(table, p)| - i
  {
    var r := ExecLoop(table, p);
    assert SkippedNothing(table, r, p, i);
    if i < |r| && r[i].start <= q && r[i].end <= q {
      CoveredFrom(table, p, q, i + 1);
    }
  }

  /** The loop passes over no match: every position where `pat` matches
      lies inside one of the hits. */
  lemma {:induction false} ScanCovers(pat: Pattern, s: string, q: nat)
    requires q <= |s| && MatchAt(pat, s, q).Some?
    ensures exists j :: 0 <= j < |Scan(pat, s)| && Scan(pat, s)[j].start <= q < Scan(pat, s)[j].end
  {
    var table := MatchTable(pat, s);
    assert table[q].Some?;
    assert Scan(pat, s) == ExecLoop(table, 0);
    CoveredFrom(table, 0, q, 0);
  }

  /** The matchers miss no name: after the lead-in of a title pattern, a
      title name that no lower-case letter continues and that its tail
      follows is matched; and a capital name between word boundaries is
      matched by the all-caps pattern. */
  lemma {:induction false} MatchFinds(pat: Pattern, s: string, p: nat, hi: nat)
    requires p <= hi <= |s|
    requires pat.AllCaps? ==> CapsNameIn(s, p, hi) && WordBoundary(s, p) && WordBoundary(s, hi)
    requires !pat.AllCaps? ==>
      && Lead(pat, s, p).Some? && Lead(pat, s, p).value <= hi
      && TitleNameIn(s, Lead(pat, s, p).value, hi)
      && (hi == |s| || !IsLower(s[hi]))
      && FollowEnd(s, hi, Tail(pat)).Some?
    ensures MatchAt(pat, s, p).Some? && MatchAt(pat, s, p).value.gEnd >= hi
  {
    if pat.AllCaps? {
      CapsNameFinds(s, p, hi);
    } else {
      TitleNameFinds(s, Lead(pat, s, p).value, hi, Tail(pat));
    }
  }

  /** The capture groups `match[1]` of the hits, in order. */
  function Groups(s: string, hits: seq<Hit>): (r: seq<string>)
    requires forall i :: 0 <= i < |hits| ==> hits[i].gStart <= hits[i].gEnd <= |s|
    ensures |r| == |hits|
    ensures forall i :: 0 <= i < |hits| ==> r[i] == s[hits[i].gStart..hits[i].gEnd]
  {
    if |hits| == 0 then [] else [s[hits[0].gStart..hits[0].gEnd]] + Groups(s, hits[1..])
  }

  /** Every capture of one pattern over the whole answer. */
  function Captures(pat: Pattern, s: string): (r: seq<string>)
    ensures forall c :: c in r ==> if pat.AllCaps? then IsCapsName(c) else IsTitleName(c)
  {
    var hits := Scan(pat, s);
    var r := Groups(s, hits);
    assert forall c :: c in r ==> if pat.AllCaps? then IsCapsName(c) else IsTitleName(c) by {
      forall c | c in r ensures if pat.AllCaps? then IsCapsName(c) else IsTitleName(c) {
        var i :| 0 <= i < |r| && r[i] == c;
        var h := hits[i];
        MatchShape(pat, s, h.start);
        if pat.AllCaps? {
          CapsNameSlice(s, h.gStart, h.gEnd);
        } else {
          TitleNameSlice(s, h.gStart, h.gEnd);
        }
      }
    }
    r
  }

  /** The captures of the patterns `pats`, pattern by pattern. */
  function CapturesOf(pats: seq<Pattern>, s: string): (r: seq<string>)
    ensures forall c :: c in r ==> IsTitleName(c) || IsCapsName(c)
  {
    if |pats| == 0 then [] else Captures(pats[0], s) + CapturesOf(pats[1..], s)
  }

  function AllCaptures(s: string): seq<string> {
    CapturesOf(Patterns, s)
  }

  // ---------------------------------------------------------------------
  // Normalisation: `toLowerCase().split(' ').map(capitalise).join(' ')`

  /** `s.split(' ')`: with `JoinSplit`, the pieces are the text cut at
      every space, none of them holding a space. */
  function SplitSpace(s: string): (r: seq<string>)
    ensures |r| >= 1
    ensures forall k :: 0 <= k < |r| ==> ' ' !in r[k]
    decreases |s|
  {
    if |s| == 0 then [""]
    else
      var rest := SplitSpace(s[1..]);
      if s[0] == ' ' then [""] + rest
      else [[s[0]] + rest[0]] + rest[1..]
  }

  /** `words.join(' ')`. */
  function JoinSpace(ws: seq<string>): string
    requires |ws| >= 1
  {
    if |ws| == 1 then ws[0] else ws[0] + " " + JoinSpace(ws[1..])
  }

  lemma JoinConsChar(c: char, ws: seq<string>)
    requires |ws| >= 1
    ensures JoinSpace([[c] + ws[0]] + ws[1..]) == [c] + JoinSpace(ws)
  {
    var ws' := [[c] + ws[0]] + ws[1..];
    assert ws'[1..] == ws[1..];
    if |ws| > 1 {
      var tail := " " + JoinSpace(ws[1..]);
      assert JoinSpace(ws') == ([c] + ws[0]) + tail;
      ConcatAssoc([c], ws[0], tail);
      assert JoinSpace(ws) == ws[0] + tail;
    }
  }

  /** Joining the pieces of a split gives the text back. */
  lemma {:induction false} JoinSplit(s: string)
    ensures JoinSpace(SplitSpace(s)) == s
    decreases |s|
  {
    if |s| > 0 {
      var rest := SplitSpace(s[1..]);
      JoinSplit(s[1..]);
      if s[0] == ' ' {
        assert ([""] + rest)[1..] == rest;
      } else {
        JoinConsChar(s[0], rest);
      }
      assert s == [s[0]] + s[1..];
    }
  }

  /** `w.charAt(0).toUpperCase() + w.slice(1)`. */
  function CapitalizeFirst(w: string): (r: string)
    ensures |r| == |w|
    ensures |w| > 0 ==> !IsLower(r[0]) && LowerChar(r[0]) == LowerChar(w[0])
    ensures forall i :: 1 <= i < |w| ==> r[i] == w[i]
  {
    if |w| == 0 then w
    else
      UpperCharCase(w[0]);
      [UpperChar(w[0])] + w[1..]
  }

  /** Capitalise every word, or every word but the first when `!first`. */
  function CapWords(ws: seq<string>, first: bool): (r: seq<string>)
    ensures |r| == |ws|
  {
    seq(|ws|, i requires 0 <= i < |ws| => if i == 0 && !first then ws[0] else CapitalizeFirst(ws[i]))
  }

  /** Pointwise reading: a character is upper-cased when it starts the text
      (and `first` holds) or follows a space `' '`. */
  function TitleCaseRef(t: string, first: bool): (r: string)
    ensures |r| == |t|
  {
    seq(|t|, i requires 0 <= i < |t| =>
      if (i == 0 && first) || (i > 0 && t[i - 1] == ' ') then UpperChar(t[i]) else t[i])
  }

  lemma {:induction false} SplitSpaceHead(t: string, first: bool)
    requires |t| > 0 && t[0] == ' '
    ensures CapWords(SplitSpace(t), first) == [""] + CapWords(SplitSpace(t[1..]), true)
  {
  }

  lemma CapitalizeCons(c: char, w: string)
    ensures CapitalizeFirst([c] + w) == [UpperChar(c)] + w
  {
  }

  lemma {:induction false} SplitWordHead(t: string, first: bool)
    requires |t| > 0 && t[0] != ' '
    ensures CapWords(SplitSpace(t), first)
        == [[if first then UpperChar(t[0]) else t[0]] + CapWords(SplitSpace(t[1..]), false)[0]]
           + CapWords(SplitSpace(t[1..]), false)[1..]
  {
    var rest := SplitSpace(t[1..]);
    var ws := SplitSpace(t);
    assert ws == [[t[0]] + rest[0]] + rest[1..];
    var tail := CapWords(rest, false);
    var lhs := CapWords(ws, first);
    var rhs := [[if first then UpperChar(t[0]) else t[0]] + tail[0]] + tail[1..];
    assert |lhs| == |rhs|;
    forall i | 0 <= i < |lhs| ensures lhs[i] == rhs[i] {
      if i == 0 {
        CapitalizeCons(t[0], rest[0]);
      } else {
        assert ws[i] == rest[i];
        assert rhs[i] == tail[i];
      }
    }
    assert lhs == rhs;
  }

  lemma {:induction false} TitleCaseRefHead(t: string, first: bool)
    requires |t| > 0
    ensures TitleCaseRef(t, first)
        == [if first then UpperChar(t[0]) else t[0]] + TitleCaseRef(t[1..], t[0] == ' ')
  {
  }

  lemma {:induction false} CapWordsSplit(t: string, first: bool)
    ensures JoinSpace(CapWords(SplitSpace(t), first)) == TitleCaseRef(t, first)
    decreases |t|
  {
    if |t| > 0 {
      CapWordsSplit(t[1..], t[0] == ' ');
      TitleCaseRefHead(t, first);
      var tail := CapWords(SplitSpace(t[1..]), t[0] == ' ');
      if t[0] == ' ' {
        SplitSpaceHead(t, first);
        assert ([""] + tail)[1..] == tail;
        assert (if first then UpperChar(t[0]) else t[0]) == ' ';
      } else {
        SplitWordHead(t, first);
        JoinConsChar(if first then UpperChar(t[0]) else t[0], tail);
      }
    }
  }

  /** The title-case normalisation of one capture. */
  function Normalise(name: string): (r: string)
    ensures |r| == |name|
    ensures forall i :: 0 <= i < |r| ==>
      r[i] == if i == 0 || name[i - 1] == ' ' then UpperChar(LowerChar(name[i])) else LowerChar(name[i])
  {
    CapWordsSplit(Lower(name), true);
    JoinSpace(CapWords(SplitSpace(Lower(name)), true))
  }

  /** The key recorded for a capture: `match[1].trim()`, then normalised. */
  function NameKey(capture: string): string {
    Normalise(Trim(capture))
  }

  function Keys(captures: seq<string>): (r: seq<string>)
    ensures |r| == |captures|
    ensures forall i :: 0 <= i < |r| ==> r[i] == NameKey(captures[i])
  {
    seq(|captures|, i requires 0 <= i < |captures| => NameKey(captures[i]))
  }

  // ---------------------------------------------------------------------
  // The reducer: a fold over the keys with a `seen` set

  /** The names kept when a key is kept the first time it is seen, provided
      it is longer than two characters: no repeats, nothing short, every
      such key present, and in the order of first sightings. */
  ghost predicate FirstSightings(keys: seq<string>, r: seq<string>) {
    && NoDuplicates(r)
    && (forall i :: 0 <= i < |r| ==> |r[i]| > 2)
    && (forall x :: x in r <==> x in keys && |x| > 2)
    && (forall i, j :: 0 <= i < j < |r| ==> FirstIndex(keys, r[i]) < FirstIndex(keys, r[j]))
  }

  /** The state of the fold after the first `k` keys. */
  ghost predicate FoldState(keys: seq<string>, k: nat, seen: set<string>, acc: seq<string>)
    requires k <= |keys|
  {
    && (forall x :: x in seen <==> x in acc)
    && NoDuplicates(acc)
    && (forall i :: 0 <= i < |acc| ==> |acc[i]| > 2)
    && (forall x :: x in acc <==> x in keys[..k] && |x| > 2)
    && (forall i :: 0 <= i < |acc| ==> FirstIndex(keys, acc[i]) < k)
    && (forall i, j :: 0 <= i < j < |acc| ==> FirstIndex(keys, acc[i]) < FirstIndex(keys, acc[j]))
  }

  lemma FirstIndexAt<T>(xs: seq<T>, k: nat)
    requires k < |xs| && xs[k] !in xs[..k]
    ensures FirstIndex(xs, xs[k]) == k
  {
  }

  /** `if (name.length > 2 && !seen.has(name)) { candidates.push(name); seen.add(name); }`
      for the keys from index `k` on. */
  function Reduce(keys: seq<string>, k: nat, seen: set<string>, acc: seq<string>): (r: seq<string>)
    requires k <= |keys|
    requires FoldState(keys, k, seen, acc)
    ensures FirstSightings(keys, r)
    decreases |keys| - k
  {
    if k == |keys| then
      assert keys[..k] == keys;
      acc
    else
      var n := keys[k];
      assert keys[..k + 1] == keys[..k] + [n];
      if |n| > 2 && n !in seen then
        FirstIndexAt(keys, k);
        Reduce(keys, k + 1, seen + {n}, acc + [n])
      else
        Reduce(keys, k + 1, seen, acc)
  }

  /** `extractCandidatesFromAnswer`. */
  function Extract(answer: string): (r: seq<string>)
    ensures FirstSightings(Keys(AllCaptures(answer)), r)
  {
    Reduce(Keys(AllCaptures(answer)), 0, {}, [])
  }

  // ---------------------------------------------------------------------
  // What the keys of captured names look like

  /** A captured name has no whitespace at either end, so `trim()` keeps it. */
  lemma CaptureUntrimmed(c: string)
    requires IsTitleName(c) || IsCapsName(c)
    ensures Trim(c) == c
  {
    var n := |c|;
    if IsTitleName(c) {
      assert TitleCharOk(c, 0, n, n - 1);
    } else {
      assert CapsCharOk(c, 0, n, n - 1);
    }
    TrimKeepsUnpadded(c);
  }

  /** Every captured name yields a key longer than two characters: two
      words of at least two letters and a separator between them. */
  lemma {:induction false} CaptureKeyLong(c: string)
    requires IsTitleName(c) || IsCapsName(c)
    ensures |NameKey(c)| > 2
  {
    CaptureUntrimmed(c);
    var n := |c|;
    var k :| 0 <= k < n && IsSpace(c[k]);
    if IsTitleName(c) {
      assert TitleCharOk(c, 0, n, 0);
      assert TitleCharOk(c, 0, n, k);
      assert k != 1 by { assert IsLower(c[1]); }
    } else {
      assert CapsCharOk(c, 0, n, 0);
      assert CapsCharOk(c, 0, n, k);
      assert k != 1 by { assert IsUpper(c[1]); }
    }
  }

  /** Every whitespace character of `t` is a plain space. */
  predicate SpacesOnly(t: string) {
    forall i :: 0 <= i < |t| && IsSpace(t[i]) ==> t[i] == ' '
  }

  /** A title name whose words are separated by plain spaces is its own key. */
  lemma {:induction false} TitleKeyUnchanged(t: string)
    requires IsTitleName(t) && SpacesOnly(t)
    ensures NameKey(t) == t
  {
    CaptureUntrimmed(t);
    var r := Normalise(t);
    forall i | 0 <= i < |t| ensures r[i] == t[i] {
      TitleNormaliseChar(t, i);
    }
  }

  lemma TitleNormaliseChar(t: string, i: nat)
    requires IsTitleName(t) && SpacesOnly(t) && i < |t|
    ensures Normalise(t)[i] == t[i]
  {
    assert TitleCharOk(t, 0, |t|, i);
    if i > 0 {
      assert TitleCharOk(t, 0, |t|, i - 1);
    }
  }

  /** A capital name whose words are separated by plain spaces has a title
      name as its key: `ANTHONY KRASANO` is kept as `Anthony Krasano`. */
  lemma {:induction false} CapsKeyIsTitleName(t: string)
    requires IsCapsName(t) && SpacesOnly(t)
    ensures IsTitleName(NameKey(t))
    ensures Lower(NameKey(t)) == Lower(t)
  {
    CaptureUntrimmed(t);
    assert NameKey(t) == Normalise(t);
    CapsNormaliseWords(t);
    CapsNormaliseSpace(t);
    NormaliseKeepsLower(t);
  }

  /** Normalising capital words gives title words. */
  lemma CapsNormaliseWords(t: string)
    requires IsCapsName(t) && SpacesOnly(t)
    ensures TitleWords(Normalise(t), 0, |t|)
  {
    forall i | 0 <= i < |t| ensures TitleCharOk(Normalise(t), 0, |t|, i) {
      CapsNormaliseChar(t, i);
    }
  }

  lemma CapsNormaliseChar(t: string, i: nat)
    requires IsCapsName(t) && SpacesOnly(t) && i < |t|
    ensures TitleCharOk(Normalise(t), 0, |t|, i)
  {
    CapsNormaliseClasses(t, i);
    TitleCharFromClasses(Normalise(t), 0, |t|, i);
  }

  /** What normalising a capital name makes of character `i` and its
      neighbours, in terms of capitals, lower-case letters and plain spaces. */
  lemma CapsNormaliseClasses(t: string, i: nat)
    requires IsCapsName(t) && SpacesOnly(t) && i < |t|
    ensures var r := Normalise(t);
      && (IsUpper(r[i]) || IsLower(r[i]) || r[i] == ' ')
      && (IsUpper(r[i]) ==> i + 1 < |t| && IsLower(r[i + 1]) && (i == 0 || r[i - 1] == ' '))
      && (IsLower(r[i]) ==> 0 < i && (IsUpper(r[i - 1]) || IsLower(r[i - 1])))
      && (r[i] == ' ' ==> 0 < i && i + 1 < |t| && !IsLower(r[i + 1]))
  {
    var r := Normalise(t);
    CapsCharAt(t, i);
    NormaliseCapital(t, i);
    if t[i] == ' ' {
      CapsCharAt(t, i + 1);
      NormaliseCapital(t, i + 1);
    } else if i == 0 || t[i - 1] == ' ' {
      NormaliseCapital(t, i + 1);
      if i > 0 {
        NormaliseCapital(t, i - 1);
      }
    } else {
      CapsCharAt(t, i - 1);
      NormaliseCapital(t, i - 1);
    }
  }

  /** `TitleCharOk` when the only spaces involved are plain spaces. */
  lemma TitleCharFromClasses(s: string, lo: nat, hi: nat, i: nat)
    requires lo <= i < hi <= |s|
    requires IsUpper(s[i]) || IsLower(s[i]) || s[i] == ' '
    requires IsUpper(s[i]) ==> i + 1 < hi && IsLower(s[i + 1]) && (i == lo || s[i - 1] == ' ')
    requires IsLower(s[i]) ==> lo < i && (IsUpper(s[i - 1]) || IsLower(s[i - 1]))
    requires s[i] == ' ' ==> lo < i && i + 1 < hi && !IsLower(s[i + 1])
    ensures TitleCharOk(s, lo, hi, i)
  {
  }

  /** Each character of a capital name is a capital or a plain space, and
      the first capital of a word has another after it. */
  lemma CapsCharAt(t: string, i: nat)
    requires IsCapsName(t) && SpacesOnly(t) && i < |t|
    ensures IsUpper(t[i]) || t[i] == ' '
    ensures t[i] == ' ' ==> 0 < i && i + 1 < |t|
    ensures IsUpper(t[i]) && (i == 0 || t[i - 1] == ' ') ==> i + 1 < |t| && IsUpper(t[i + 1])
  {
    assert CapsCharOk(t, 0, |t|, i);
    if i > 0 && IsSpace(t[i - 1]) {
      assert t[i - 1] == ' ';
    }
  }

  /** A capital becomes upper case at the start of a word and lower case
      inside one; a space stays a space. */
  lemma NormaliseCapital(t: string, i: nat)
    requires i < |t| && (IsUpper(t[i]) || t[i] == ' ')
    ensures var r := Normalise(t);
      && (t[i] == ' ' ==> r[i] == ' ')
      && (IsUpper(t[i]) && (i == 0 || t[i - 1] == ' ') ==> IsUpper(r[i]))
      && (IsUpper(t[i]) && !(i == 0 || t[i - 1] == ' ') ==> IsLower(r[i]))
  {
    var r := Normalise(t);
    assert r[i] == if i == 0 || t[i - 1] == ' ' then UpperChar(LowerChar(t[i])) else LowerChar(t[i]);
  }

  /** The spaces between the words are kept. */
  lemma CapsNormaliseSpace(t: string)
    requires IsCapsName(t) && SpacesOnly(t)
    ensures HasSpace(Normalise(t), 0, |t|)
  {
    var n := |t|;
    var r := Normalise(t);
    var k :| 0 <= k < n && IsSpace(t[k]);
    assert t[k] == ' ';
    assert LowerChar(' ') == ' ' && UpperChar(' ') == ' ';
    assert r[k] == if k == 0 || t[k - 1] == ' ' then UpperChar(LowerChar(t[k])) else LowerChar(t[k]);
    assert r[k] == ' ';
  }

  /** Normalisation changes only the case of letters. */
  lemma NormaliseKeepsLower(t: string)
    ensures Lower(Normalise(t)) == Lower(t)
  {
    var r := Normalise(t);
    forall i | 0 <= i < |t| ensures LowerChar(r[i]) == LowerChar(t[i]) {
      assert r[i] == if i == 0 || t[i - 1] == ' ' then UpperChar(LowerChar(t[i])) else LowerChar(t[i]);
      CaseRoundTrip(t[i]);
    }
  }

  /** The length test never drops a capture: every capture's key appears
      among the extracted candidates. */
  lemma {:induction false} EveryCaptureKept(answer: string)
    ensures forall c :: c in AllCaptures(answer) ==> NameKey(c) in Extract(answer)
  {
    var cs := AllCaptures(answer);
    var keys := Keys(cs);
    forall c | c in cs ensures NameKey(c) in Extract(answer) {
      CaptureKeyLong(c);
      var i :| 0 <= i < |cs| && cs[i] == c;
      assert keys[i] == NameKey(c);
    }
  }

  // ---------------------------------------------------------------------
  // Answers with at most one match per pattern

  /** A table with no match from `p` on ends the loop at once. */
  lemma {:induction false} ExecLoopEmpty(table: seq<Option<Hit>>, p: nat)
    requires TableOk(table) && p < |table| && NoHitIn(table, p, |table|)
    ensures ExecLoop(table, p) == []
    decreases |table| - p
  {
    if p + 1 < |table| {
      ExecLoopEmpty(table, p + 1);
    }
  }

  /** A pattern that matches nowhere yields no hits. */
  lemma ScanEmpty(pat: Pattern, s: string)
    requires forall q :: 0 <= q <= |s| ==> MatchAt(pat, s, q).None?
    ensures Scan(pat, s) == []
  {
    ExecLoopEmpty(MatchTable(pat, s), 0);
  }

  /** On a single line an anchored pattern can only match at index 0. */
  lemma ScanOneLine(pat: Pattern, s: string)
    requires pat.LineAnchored()
    requires forall q :: 0 < q <= |s| ==> !AtLineStart(s, q)
    requires MatchAt(pat, s, 0).None?
    ensures Scan(pat, s) == []
  {
    ScanEmpty(pat, s);
  }

  /** A pattern that matches the whole text at its start yields that hit alone. */
  lemma ScanWhole(pat: Pattern, s: string, h: Hit)
    requires MatchAt(pat, s, 0) == Some(h) && h.end == |s|
    requires MatchAt(pat, s, |s|).None?
    ensures Scan(pat, s) == [h]
  {
    var table := MatchTable(pat, s);
    assert ExecLoop(table, |s|) == [];
  }

  /** A pattern with no hit captures nothing. */
  lemma CapturesNone(pat: Pattern, s: string)
    requires Scan(pat, s) == []
    ensures Captures(pat, s) == []
  {
  }

  /** A pattern with one hit captures its group. */
  lemma CapturesOne(pat: Pattern, s: string, h: Hit)
    requires Scan(pat, s) == [h]
    ensures h.gStart <= h.gEnd <= |s|
    ensures Captures(pat, s) == [s[h.gStart..h.gEnd]]
  {
    assert Captures(pat, s) == Groups(s, [h]);
  }

  /** A single key longer than two characters is kept. */
  lemma ReduceSingle(n: string)
    requires |n| > 2
    ensures Reduce([n], 0, {}, []) == [n]
  {
    assert [n][..0] == [];
    assert [n][..1] == [n];
    FirstIndexAt([n], 0);
    assert FoldState([n], 1, {n}, [n]);
  }

  /** An answer with one capture yields that capture's key alone. */
  lemma ExtractOne(answer: string, c: string)
    requires AllCaptures(answer) == [c] && |NameKey(c)| > 2
    ensures Extract(answer) == [NameKey(c)]
  {
    assert Keys([c]) == [NameKey(c)];
    ReduceSingle(NameKey(c));
  }
}

=== FILE: names.dfy ===
/**
 The two name shapes the candidate matchers capture, and scanners that
 find them with the same result as the JavaScript backtracking matcher.

   title name   `[A-Z][a-z]+(?:\s+[A-Z][a-z]+)+`   (six of the seven patterns)
   capital name `[A-Z]{2,}(?:\s+[A-Z]{2,})+`       (the all-caps pattern)

 Both are matched greedily and the engine backtracks by giving back whole
 `\s+word` repetitions, newest first. Giving back part of a run never
 changes the result, for one of two reasons:
 - In the bulleted and numbered patterns nothing follows the group. The
   greedy attempt therefore succeeds as soon as two words are in, and the
   engine never backtracks into a run. With fewer words, a shortened run
   leaves a letter next, which cannot start another `\s+word`.
 - In the other five patterns, a shortened `[a-z]+` or `[A-Z]{2,}` leaves
   a letter of the same class next, and a shortened `\s+` leaves a space.
   Neither a further repetition nor the tail (`**`, `:*`, `:` or `\b`)
   accepts that character.
 So the scanners below try the longer name first and then fall back one
 repetition at a time.
 */
module Names {
  import opened Text

  /** Local conditions on `s[i]` inside a run of title-cased words `s[lo..hi]`. */
  predicate TitleCharOk(s: string, lo: nat, hi: nat, i: nat)
    requires lo <= i < hi <= |s|
  {
    && (IsUpper(s[i]) || IsLower(s[i]) || IsSpace(s[i]))
    && (IsUpper(s[i]) ==> i + 1 < hi && IsLower(s[i + 1]) && (i == lo || IsSpace(s[i - 1])))
    && (IsLower(s[i]) ==> lo < i && !IsSpace(s[i - 1]))
    && (IsSpace(s[i]) ==> lo < i && i + 1 < hi && !IsLower(s[i + 1]))
  }

  /** `s[lo..hi]` matches `[A-Z][a-z]+(?:\s+[A-Z][a-z]+)*`. */
  predicate TitleWords(s: string, lo: nat, hi: nat) {
    && lo < hi <= |s|
    && IsUpper(s[lo])
    && forall i :: lo <= i < hi ==> TitleCharOk(s, lo, hi, i)
  }

  predicate HasSpace(s: string, lo: nat, hi: nat)
    requires lo <= hi <= |s|
  {
    exists i :: lo <= i < hi && IsSpace(s[i])
  }

  /** `s[lo..hi]` matches `[A-Z][a-z]+(?:\s+[A-Z][a-z]+)+`. */
  predicate TitleNameIn(s: string, lo: nat, hi: nat) {
    TitleWords(s, lo, hi) && HasSpace(s, lo, hi)
  }

  /** The whole of `t` is a title name. */
  predicate IsTitleName(t: string) {
    TitleNameIn(t, 0, |t|)
  }

  /** Local conditions on `s[i]` inside a run of capital words `s[lo..hi]`. */
  predicate CapsCharOk(s: string, lo: nat, hi: nat, i: nat)
    requires lo <= i < hi <= |s|
  {
    && (IsUpper(s[i]) || IsSpace(s[i]))
    && (IsUpper(s[i]) && (i == lo || IsSpace(s[i - 1])) ==> i + 1 < hi && IsUpper(s[i + 1]))
    && (IsSpace(s[i]) ==> lo < i && i + 1 < hi)
  }

  /** `s[lo..hi]` matches `[A-Z]{2,}(?:\s+[A-Z]{2,})*`. */
  predicate CapsWords(s: string, lo: nat, hi: nat) {
    && lo < hi <= |s|
    && IsUpper(s[lo])
    && forall i :: lo <= i < hi ==> CapsCharOk(s, lo, hi, i)
  }

  /** `s[lo..hi]` matches `[A-Z]{2,}(?:\s+[A-Z]{2,})+`. */
  predicate CapsNameIn(s: string, lo: nat, hi: nat) {
    CapsWords(s, lo, hi) && HasSpace(s, lo, hi)
  }

  predicate IsCapsName(t: string) {
    CapsNameIn(t, 0, |t|)
  }

  /** A name found inside `s` is a name on its own. */
  lemma TitleNameSlice(s: string, lo: nat, hi: nat)
    requires TitleNameIn(s, lo, hi)
    ensures IsTitleName(s[lo..hi])
  {
    var t := s[lo..hi];
    forall i | 0 <= i < |t| ensures TitleCharOk(t, 0, |t|, i) {
      assert TitleCharOk(s, lo, hi, lo + i);
    }
    var k :| lo <= k < hi && IsSpace(s[k]);
    assert IsSpace(t[k - lo]);
  }

  lemma CapsNameSlice(s: string, lo: nat, hi: nat)
    requires CapsNameIn(s, lo, hi)
    ensures IsCapsName(s[lo..hi])
  {
    var t := s[lo..hi];
    forall i | 0 <= i < |t| ensures CapsCharOk(t, 0, |t|, i) {
      assert CapsCharOk(s, lo, hi, lo + i);
    }
    var k :| lo <= k < hi && IsSpace(s[k]);
    assert IsSpace(t[k - lo]);
  }

  /** `[A-Z][a-z]+` at `p`: the end of the word. */
  function WordEnd(s: string, p: nat): (r: Option<nat>)
    requires p <= |s|
    ensures r.Some? ==> p + 2 <= r.value <= |s| && TitleWords(s, p, r.value)
    ensures r.Some? ==> IsUpper(s[p]) && forall i :: p < i < r.value ==> IsLower(s[i])
    ensures r.Some? ==> r.value == |s| || !IsLower(s[r.value])
  {
    if p + 1 < |s| && IsUpper(s[p]) && IsLower(s[p + 1]) then
      var e := RunEnd(s, p + 1, LowerCase);
      assert forall i :: p + 1 <= i < e ==> IsLower(s[i]);
      Some(e)
    else None
  }

  /** `[A-Z]{2,}` at `p`: the end of the token. */
  function TokenEnd(s: string, p: nat): (r: Option<nat>)
    requires p <= |s|
    ensures r.Some? ==> p + 2 <= r.value <= |s| && CapsWords(s, p, r.value)
    ensures r.Some? ==> forall i :: p <= i < r.value ==> IsUpper(s[i])
    ensures r.Some? ==> r.value == |s| || !IsUpper(s[r.value])
  {
    var e := RunEnd(s, p, Upper);
    if e >= p + 2 then
      assert forall i :: p <= i < e ==> IsUpper(s[i]);
      Some(e)
    else None
  }

  /** What must follow a title name for the pattern to match, if anything. */
  datatype Follow = TwoStars | ColonStar | Colon | Anything

  /** The end of the match when the name ends at `e` and `f` follows. */
  function FollowEnd(s: string, e: nat, f: Follow): (r: Option<nat>)
    requires e <= |s|
    ensures r.Some? ==> e <= r.value <= |s|
  {
    match f
    case TwoStars => if e + 2 <= |s| && s[e] == '*' && s[e + 1] == '*' then Some(e + 2) else None
    case ColonStar => if e + 2 <= |s| && s[e] == ':' && s[e + 1] == '*' then Some(e + 2) else None
    case Colon => if e + 1 <= |s| && s[e] == ':' then Some(e + 1) else None
    case Anything => Some(e)
  }

  /** After `words` title words, the last ending at `e`: try one more
      `\s+[A-Z][a-z]+`, and else stop here if two words are in and `f` follows.
      The result is the name end and the match end. */
  function TitleRest(s: string, e: nat, words: nat, f: Follow): (r: Option<(nat, nat)>)
    requires e <= |s|
    ensures r.Some? ==> e <= r.value.0 <= r.value.1 <= |s| && FollowEnd(s, r.value.0, f) == Some(r.value.1)
    decreases |s| - e
  {
    var q := RunEnd(s, e, Space);
    var longer := if q > e && WordEnd(s, q).Some? then TitleRest(s, WordEnd(s, q).value, words + 1, f) else None;
    if longer.Some? then longer
    else if words >= 2 && FollowEnd(s, e, f).Some? then Some((e, FollowEnd(s, e, f).value))
    else None
  }

  lemma TitleCharOkGrows(s: string, lo: nat, hi: nat, hi': nat, i: nat)
    requires lo <= i < hi <= hi' <= |s|
    requires TitleCharOk(s, lo, hi, i)
    ensures TitleCharOk(s, lo, hi', i)
  {
  }

  /** Spaces and one more word extend a run of title words. */
  lemma TitleWordsExtend(s: string, lo: nat, e: nat, q: nat, e': nat)
    requires TitleWords(s, lo, e) && TitleWords(s, q, e')
    requires e < q && forall i :: e <= i < q ==> IsSpace(s[i])
    requires forall i :: q < i < e' ==> IsLower(s[i])
    ensures TitleWords(s, lo, e')
  {
    forall i | lo <= i < e' ensures TitleCharOk(s, lo, e', i) {
      if i < e {
        TitleCharOkGrows(s, lo, e, e', i);
      } else if i >= q {
        assert TitleCharOk(s, q, e', i);
      }
    }
  }

  lemma {:induction false} TitleRestShape(s: string, lo: nat, e: nat, words: nat, f: Follow)
    requires TitleWords(s, lo, e)
    requires words >= 2 ==> HasSpace(s, lo, e)
    ensures var r := TitleRest(s, e, words, f); r.Some? ==> TitleNameIn(s, lo, r.value.0)
    decreases |s| - e, 1
  {
    var q := RunEnd(s, e, Space);
    if q > e && WordEnd(s, q).Some? && TitleRest(s, WordEnd(s, q).value, words + 1, f).Some? {
      TitleRestShapeNext(s, lo, e, q, words, f);
    } else {
      TitleRestHere(s, e, words, f);
    }
  }

  /** The step of `TitleRestShape` when `TitleRest` takes a longer match. */
  lemma {:induction false} TitleRestShapeNext(s: string, lo: nat, e: nat, q: nat, words: nat, f: Follow)
    requires TitleWords(s, lo, e) && e <= |s|
    requires words >= 2 ==> HasSpace(s, lo, e)
    requires q == RunEnd(s, e, Space) && q > e && WordEnd(s, q).Some?
    requires TitleRest(s, WordEnd(s, q).value, words + 1, f).Some?
    ensures TitleRest(s, e, words, f).Some? && TitleNameIn(s, lo, TitleRest(s, e, words, f).value.0)
    decreases |s| - e, 0
  {
    var e' := WordEnd(s, q).value;
    TitleWordsStep(s, lo, e, q, e');
    TitleRestShape(s, lo, e', words + 1, f);
    TitleRestLonger(s, e, q, e', words, f);
  }

  /** When one more word can be matched and the rest after it succeeds,
      `TitleRest` takes that longer match. */
  lemma TitleRestLonger(s: string, e: nat, q: nat, e2: nat, words: nat, f: Follow)
    requires e <= |s| && q == RunEnd(s, e, Space) && q > e && WordEnd(s, q) == Some(e2)
    requires TitleRest(s, e2, words + 1, f).Some?
    ensures TitleRest(s, e, words, f) == TitleRest(s, e2, words + 1, f)
  {
  }

  /** The scan from `e` finds a name that ends at `hi` or later. */
  predicate TitleReaches(s: string, e: nat, words: nat, f: Follow, hi: nat)
    requires e <= |s|
  {
    TitleRest(s, e, words, f).Some? && TitleRest(s, e, words, f).value.0 >= hi
  }

  /** The longer match, when it succeeds, is the one `TitleRest` takes. */
  lemma TitleRestGrows(s: string, e: nat, e2: nat, words: nat, f: Follow, hi: nat)
    requires e <= |s| && RunEnd(s, e, Space) > e && WordEnd(s, RunEnd(s, e, Space)) == Some(e2)
    requires TitleReaches(s, e2, words + 1, f, hi)
    ensures TitleReaches(s, e, words, f, hi)
  {
  }

  /** Two words followed by the tail are always enough for a match. */
  lemma TitleRestStops(s: string, e: nat, words: nat, f: Follow)
    requires e <= |s| && words >= 2 && FollowEnd(s, e, f).Some?
    ensures TitleReaches(s, e, words, f, e)
  {
  }

  /** When no longer match exists, a match ends the name at `e`. */
  lemma TitleRestHere(s: string, e: nat, words: nat, f: Follow)
    requires e <= |s|
    requires var q := RunEnd(s, e, Space);
      !(q > e && WordEnd(s, q).Some? && TitleRest(s, WordEnd(s, q).value, words + 1, f).Some?)
    ensures TitleRest(s, e, words, f).Some? ==> TitleRest(s, e, words, f).value.0 == e && words >= 2
  {
  }

  /** One more `\s+[A-Z][a-z]+` after title words gives a title name. */
  lemma TitleWordsStep(s: string, lo: nat, e: nat, q: nat, e': nat)
    requires TitleWords(s, lo, e) && e <= |s|
    requires q == RunEnd(s, e, Space) && q > e
    requires WordEnd(s, q) == Some(e')
    ensures TitleWords(s, lo, e') && HasSpace(s, lo, e')
  {
    TitleWordsExtend(s, lo, e, q, e');
    assert lo <= e < e' && IsSpace(s[e]);
  }

  /** A title name at `g` followed by `f`: the name end and the match end. */
  function TitleNameAt(s: string, g: nat, f: Follow): (r: Option<(nat, nat)>)
    requires g <= |s|
    ensures r.Some? ==> g < r.value.0 <= r.value.1 <= |s|
    ensures r.Some? ==> TitleNameIn(s, g, r.value.0) && FollowEnd(s, r.value.0, f) == Some(r.value.1)
  {
    match WordEnd(s, g)
    case None => None
    case Some(e) =>
      TitleRestShape(s, g, e, 1, f);
      TitleRest(s, e, 1, f)
  }

  /** The scanner's state inside title words `s[lo..hi]`: the last word
      matched ends at `e`, `words` words are in (two, or one with another
      space still to come), and `hi` ends the name where no lower-case
      letter follows and `f` follows. */
  predicate TitleFindState(s: string, lo: nat, e: nat, hi: nat, words: nat, f: Follow) {
    && TitleWords(s, lo, hi)
    && lo < e <= hi && IsLower(s[e - 1])
    && (e < hi ==> IsSpace(s[e]))
    && (hi == |s| || !IsLower(s[hi]))
    && words >= 1 && (words >= 2 || HasSpace(s, e, hi))
    && FollowEnd(s, hi, f).Some?
  }

  /** From `e`, spaces and a title word follow one another up to `hi`,
      as `TitleRest` reads them. */
  predicate WordChain(s: string, e: nat, hi: nat)
    requires e <= hi <= |s|
    decreases hi - e
  {
    || e == hi
    || (var q := RunEnd(s, e, Space);
        && q > e && WordEnd(s, q).Some? && e < WordEnd(s, q).value <= hi
        && WordChain(s, WordEnd(s, q).value, hi))
  }

  /** The first link of a chain that has not reached its end. */
  lemma ChainStep(s: string, e: nat, hi: nat) returns (e2: nat)
    requires e < hi <= |s| && WordChain(s, e, hi)
    ensures RunEnd(s, e, Space) > e && WordEnd(s, RunEnd(s, e, Space)) == Some(e2)
    ensures e < e2 <= hi && WordChain(s, e2, hi)
  {
    e2 := WordEnd(s, RunEnd(s, e, Space)).value;
  }

  /** `TitleRest` succeeds along such a chain once two words are in, and
      takes the whole chain. */
  lemma {:induction false} ChainFinds(s: string, e: nat, hi: nat, words: nat, f: Follow)
    requires e <= hi <= |s| && WordChain(s, e, hi)
    requires words >= 2 || (words >= 1 && e < hi)
    requires FollowEnd(s, hi, f).Some?
    ensures TitleReaches(s, e, words, f, hi)
    decreases hi - e, 1
  {
    if e < hi {
      ChainFindsNext(s, e, hi, words, f);
    } else {
      TitleRestStops(s, e, words, f);
    }
  }

  /** The step of `ChainFinds` when a word remains before `hi`. */
  lemma {:induction false} ChainFindsNext(s: string, e: nat, hi: nat, words: nat, f: Follow)
    requires e < hi <= |s| && WordChain(s, e, hi)
    requires words >= 1
    requires FollowEnd(s, hi, f).Some?
    ensures TitleReaches(s, e, words, f, hi)
    decreases hi - e, 0
  {
    var e2 := ChainStep(s, e, hi);
    ChainFinds(s, e2, hi, words + 1, f);
    TitleRestGrows(s, e, e2, words, f, hi);
  }

  /** Title words from the end of one of their words to their end form a
      chain. */
  lemma {:induction false} TitleChain(s: string, lo: nat, e: nat, hi: nat, words: nat, f: Follow)
    requires TitleFindState(s, lo, e, hi, words, f)
    ensures hi <= |s| && WordChain(s, e, hi)
    decreases hi - e
  {
    if e < hi {
      var e2 := TitleNextWord(s, lo, e, hi, words, f);
      TitleChain(s, lo, e2, hi, words + 1, f);
    }
  }

  /** The scanner misses no name: from any such state the scan finds a
      match, and the name it takes ends at `hi` or later. */
  lemma TitleRestFinds(s: string, lo: nat, e: nat, hi: nat, words: nat, f: Follow)
    requires TitleFindState(s, lo, e, hi, words, f)
    ensures TitleRest(s, e, words, f).Some? && TitleRest(s, e, words, f).value.0 >= hi
  {
    TitleChain(s, lo, e, hi, words, f);
    ChainFinds(s, e, hi, words, f);
  }

  /** Inside title words `s[lo..hi]`, the spaces after the word ending at
      `e` are followed by the next word, which ends at `e2` within `hi`. */
  lemma TitleNextWord(s: string, lo: nat, e: nat, hi: nat, words: nat, f: Follow) returns (e2: nat)
    requires TitleFindState(s, lo, e, hi, words, f) && e < hi
    ensures RunEnd(s, e, Space) > e && WordEnd(s, RunEnd(s, e, Space)) == Some(e2)
    ensures e < e2 <= hi <= |s| && TitleFindState(s, lo, e2, hi, words + 1, f)
  {
    var q := RunEnd(s, e, Space);
    assert TitleCharOk(s, lo, hi, hi - 1);
    assert q < hi;
    assert TitleCharOk(s, lo, hi, q);
    assert IsUpper(s[q]) by { assert IsSpace(s[q - 1]); }
    e2 := WordEnd(s, q).value;
    assert e2 <= hi;
    if e2 < hi {
      assert TitleCharOk(s, lo, hi, e2);
    }
  }

  /** A title name at `g` that ends where no lower-case letter follows and
      is followed by `f` is found by `TitleNameAt`, which takes that name or
      a longer one. As the end `TitleNameAt` returns meets the same three
      conditions, it returns the longest name that does, as the greedy
      repetition with backtracking does. */
  lemma {:induction false} TitleNameFinds(s: string, g: nat, hi: nat, f: Follow)
    requires TitleNameIn(s, g, hi)
    requires hi == |s| || !IsLower(s[hi])
    requires FollowEnd(s, hi, f).Some?
    ensures TitleNameAt(s, g, f).Some? && TitleNameAt(s, g, f).value.0 >= hi
  {
    assert TitleCharOk(s, g, hi, g);
    var e := WordEnd(s, g).value;
    assert e <= hi;
    if e < hi {
      assert TitleCharOk(s, g, hi, e);
    }
    var k :| g <= k < hi && IsSpace(s[k]);
    assert k >= e;
    TitleRestFinds(s, g, e, hi, 1, f);
  }

  /** `\b` between `s[e - 1]` and `s[e]`. */
  predicate WordBoundary(s: string, e: nat)
    requires e <= |s|
  {
    (e > 0 && IsWordChar(s[e - 1])) != (e < |s| && IsWordChar(s[e]))
  }

  /** After `tokens` capital tokens, the last ending at `e`: try one more
      `\s+[A-Z]{2,}`, and else stop here if two tokens are in and `\b` holds. */
  function CapsRest(s: string, e: nat, tokens: nat): (r: Option<nat>)
    requires e <= |s|
    ensures r.Some? ==> e <= r.value <= |s| && WordBoundary(s, r.value)
    decreases |s| - e
  {
    var q := RunEnd(s, e, Space);
    var longer := if q > e && TokenEnd(s, q).Some? then CapsRest(s, TokenEnd(s, q).value, tokens + 1) else None;
    if longer.Some? then longer
    else if tokens >= 2 && WordBoundary(s, e) then Some(e)
    else None
  }

  lemma CapsCharOkGrows(s: string, lo: nat, hi: nat, hi': nat, i: nat)
    requires lo <= i < hi <= hi' <= |s|
    requires CapsCharOk(s, lo, hi, i)
    ensures CapsCharOk(s, lo, hi', i)
  {
  }

  lemma CapsWordsExtend(s: string, lo: nat, e: nat, q: nat, e': nat)
    requires CapsWords(s, lo, e) && CapsWords(s, q, e')
    requires e < q && forall i :: e <= i < q ==> IsSpace(s[i])
    requires forall i :: q <= i < e' ==> IsUpper(s[i])
    ensures CapsWords(s, lo, e')
  {
    forall i | lo <= i < e' ensures CapsCharOk(s, lo, e', i) {
      if i < e {
        CapsCharOkGrows(s, lo, e, e', i);
      } else if i >= q {
        assert CapsCharOk(s, q, e', i);
      }
    }
  }

  lemma {:induction false} CapsRestShape(s: string, lo: nat, e: nat, tokens: nat)
    requires CapsWords(s, lo, e)
    requires tokens >= 2 ==> HasSpace(s, lo, e)
    ensures var r := CapsRest(s, e, tokens); r.Some? ==> CapsNameIn(s, lo, r.value)
    decreases |s| - e, 1
  {
    var q := RunEnd(s, e, Space);
    if q > e && TokenEnd(s, q).Some? && CapsRest(s, TokenEnd(s, q).value, tokens + 1).Some? {
      CapsRestShapeNext(s, lo, e, q, tokens);
    } else {
      CapsRestHere(s, e, tokens);
    }
  }

  /** The step of `CapsRestShape` when `CapsRest` takes a longer match. */
  lemma {:induction false} CapsRestShapeNext(s: string, lo: nat, e: nat, q: nat, tokens: nat)
    requires CapsWords(s, lo, e) && e <= |s|
    requires tokens >= 2 ==> HasSpace(s, lo, e)
    requires q == RunEnd(s, e, Space) && q > e && TokenEnd(s, q).Some?
    requires CapsRest(s, TokenEnd(s, q).value, tokens + 1).Some?
    ensures CapsRest(s, e, tokens).Some? && CapsNameIn(s, lo, CapsRest(s, e, tokens).value)
    decreases |s| - e, 0
  {
    var e' := TokenEnd(s, q).value;
    CapsWordsStep(s, lo, e, q, e');
    CapsRestShape(s, lo, e', tokens + 1);
    CapsRestLonger(s, e, q, e', tokens);
  }

  /** When one more token can be matched and the rest after it succeeds,
      `CapsRest` takes that longer match. */
  lemma CapsRestLonger(s: string, e: nat, q: nat, e2: nat, tokens: nat)
    requires e <= |s| && q == RunEnd(s, e, Space) && q > e && TokenEnd(s, q) == Some(e2)
    requires CapsRest(s, e2, tokens + 1).Some?
    ensures CapsRest(s, e, tokens) == CapsRest(s, e2, tokens + 1)
  {
  }

  /** Two tokens ending at a word boundary are always enough for a match. */
  lemma CapsRestStops(s: string, e: nat, tokens: nat)
    requires e <= |s| && tokens >= 2 && WordBoundary(s, e)
    ensures CapsRest(s, e, tokens).Some?
  {
  }

  /** When no longer match exists, a match ends at `e`. */
  lemma CapsRestHere(s: string, e: nat, tokens: nat)
    requires e <= |s|
    requires var q := RunEnd(s, e, Space);
      !(q > e && TokenEnd(s, q).Some? && CapsRest(s, TokenEnd(s, q).value, tokens + 1).Some?)
    ensures CapsRest(s, e, tokens).Some? ==> CapsRest(s, e, tokens).value == e && tokens >= 2
  {
  }

  /** One more `\s+[A-Z]{2,}` after capital words gives a capital name. */
  lemma CapsWordsStep(s: string, lo: nat, e: nat, q: nat, e': nat)
    requires CapsWords(s, lo, e) && e <= |s|
    requires q == RunEnd(s, e, Space) && q > e
    requires TokenEnd(s, q) == Some(e')
    ensures CapsWords(s, lo, e') && HasSpace(s, lo, e')
  {
    CapsWordsExtend(s, lo, e, q, e');
    assert lo <= e < e' && IsSpace(s[e]);
  }

  /** `\b[A-Z]{2,}(?:\s+[A-Z]{2,})+\b` at `p`: the end of the name. */
  function CapsNameAt(s: string, p: nat): (r: Option<nat>)
    requires p <= |s|
    ensures r.Some? ==> p < r.value <= |s| && CapsNameIn(s, p, r.value) && WordBoundary(s, r.value)
    ensures r.Some? ==> WordBoundary(s, p)
  {
    if !WordBoundary(s, p) then None
    else
      match TokenEnd(s, p)
      case None => None
      case Some(e) =>
        CapsRestShape(s, p, e, 1);
        CapsRest(s, e, 1)
  }

  /** The scanner misses no capital name: when capital words `s[lo..hi]`
      end at a word boundary, the scan resumed at the end `e` of one of
      their tokens finds a match. */
  lemma {:induction false} CapsRestFinds(s: string, lo: nat, e: nat, hi: nat, tokens: nat)
    requires CapsWords(s, lo, hi)
    requires lo < e <= hi && IsUpper(s[e - 1])
    requires e < hi ==> IsSpace(s[e])
    requires WordBoundary(s, hi)
    requires tokens >= 1 && (tokens >= 2 || HasSpace(s, e, hi))
    ensures CapsRest(s, e, tokens).Some? && CapsRest(s, e, tokens).value >= hi
    decreases hi - e, 1
  {
    if e < hi {
      CapsRestFindsNext(s, lo, e, hi, tokens);
    } else {
      CapsRestStops(s, e, tokens);
    }
  }

  /** The step of `CapsRestFinds` when a token remains before `hi`. */
  lemma {:induction false} CapsRestFindsNext(s: string, lo: nat, e: nat, hi: nat, tokens: nat)
    requires CapsWords(s, lo, hi)
    requires lo < e < hi && IsUpper(s[e - 1]) && IsSpace(s[e])
    requires WordBoundary(s, hi)
    requires tokens >= 1
    ensures CapsRest(s, e, tokens).Some? && CapsRest(s, e, tokens).value >= hi
    decreases hi - e, 0
  {
    var e2 := CapsNextToken(s, lo, e, hi);
    CapsRestFinds(s, lo, e2, hi, tokens + 1);
    CapsRestLonger(s, e, RunEnd(s, e, Space), e2, tokens);
  }

  /** Inside capital words `s[lo..hi]` that end at a word boundary, the
      spaces after the token ending at `e` are followed by the next token,
      which ends at `e2` within `hi`. */
  lemma CapsNextToken(s: string, lo: nat, e: nat, hi: nat) returns (e2: nat)
    requires CapsWords(s, lo, hi)
    requires lo < e < hi && IsSpace(s[e])
    requires WordBoundary(s, hi)
    ensures var q := RunEnd(s, e, Space); q > e && TokenEnd(s, q) == Some(e2)
    ensures e < e2 <= hi && IsUpper(s[e2 - 1]) && (e2 < hi ==> IsSpace(s[e2]))
  {
    var q := RunEnd(s, e, Space);
    assert CapsCharOk(s, lo, hi, hi - 1);
    assert q < hi;
    assert CapsCharOk(s, lo, hi, q);
    e2 := TokenEnd(s, q).value;
    assert IsUpper(s[hi - 1]);
    assert hi < |s| ==> !IsUpper(s[hi]);
    assert e2 <= hi;
    if e2 < hi {
      assert CapsCharOk(s, lo, hi, e2);
    }
  }

  /** A capital name with a word boundary at both ends is found by
      `CapsNameAt`, which takes that name or a longer one: the longest
      capital name from `p` that ends at a word boundary. */
  lemma {:induction false} CapsNameFinds(s: string, p: nat, hi: nat)
    requires CapsNameIn(s, p, hi)
    requires WordBoundary(s, p) && WordBoundary(s, hi)
    ensures CapsNameAt(s, p).Some? && CapsNameAt(s, p).value >= hi
  {
    assert CapsCharOk(s, p, hi, p);
    var e := TokenEnd(s, p).value;
    assert CapsCharOk(s, p, hi, hi - 1);
    assert IsUpper(s[hi - 1]);
    assert hi < |s| ==> !IsUpper(s[hi]);
    assert e <= hi;
    if e < hi {
      assert CapsCharOk(s, p, hi, e);
    }
    var k :| p <= k < hi && IsSpace(s[k]);
    assert k >= e;
    CapsRestFinds(s, p, e, hi, 1);
  }
}

=== FILE: ranked.dfy ===
/**
 The example in the source comment above the first extraction pattern: the answer
 `**1. Nadia Delgado**` yields the single candidate `Nadia Delgado`. Only
 the ranked bold pattern matches it, once, over the whole answer.
 */
module RankedAnswer {
  import opened Text
  import opened Names
  import opened Extractor

  const Answer: string := "**1. Nadia Delgado**"

  /** `s` is the answer, given character by character. */
  predicate Spelled(s: string) {
    SpelledAs(s, Answer)
  }

  // ---------------------------------------------------------------------
  // The ranked bold pattern

  lemma AnswerDigits(s: string)
    requires Spelled(s)
    ensures RunEnd(s, 2, Digit) == 3
  {
    assert s[3] == '.';
    assert RunEnd(s, 3, Digit) == 3;
  }

  lemma AnswerRankSpace(s: string)
    requires Spelled(s)
    ensures RunEnd(s, 4, Space) == 5
  {
    assert s[5] == 'N';
    assert RunEnd(s, 5, Space) == 5;
  }

  /** The rank prefix `1. ` is skipped: the name starts at index 5. */
  lemma AnswerRank(s: string)
    requires Spelled(s)
    ensures RankEnd(s, 2) == 5
  {
    AnswerDigits(s);
    AnswerRankSpace(s);
    assert s[3] == '.';
  }

  lemma AnswerFirstWord(s: string)
    requires Spelled(s)
    ensures WordEnd(s, 5) == Some(10)
  {
    assert s[10] == ' ';
    assert RunEnd(s, 10, LowerCase) == 10;
    assert RunEnd(s, 9, LowerCase) == 10;
    assert RunEnd(s, 8, LowerCase) == 10;
    assert RunEnd(s, 7, LowerCase) == 10;
    assert RunEnd(s, 6, LowerCase) == 10;
  }

  lemma AnswerSecondWord(s: string)
    requires Spelled(s)
    ensures WordEnd(s, 11) == Some(18)
  {
    assert s[18] == '*';
    assert RunEnd(s, 18, LowerCase) == 18;
    assert RunEnd(s, 17, LowerCase) == 18;
    assert RunEnd(s, 16, LowerCase) == 18;
    assert RunEnd(s, 15, LowerCase) == 18;
    assert RunEnd(s, 14, LowerCase) == 18;
    assert RunEnd(s, 13, LowerCase) == 18;
    assert RunEnd(s, 12, LowerCase) == 18;
  }

  /** After the second word the name stops, closed by `**`. */
  lemma AnswerStops(s: string)
    requires Spelled(s)
    ensures TitleRest(s, 18, 2, TwoStars) == Some((18, 20))
  {
    assert s[18] == '*' && s[19] == '*';
    assert RunEnd(s, 18, Space) == 18;
  }

  /** After the first word, the second word follows and closes the name. */
  lemma AnswerRestOfName(s: string)
    requires Spelled(s)
    ensures TitleRest(s, 10, 1, TwoStars) == Some((18, 20))
  {
    AnswerSecondWord(s);
    AnswerStops(s);
    assert s[10] == ' ' && s[11] == 'D';
    assert RunEnd(s, 11, Space) == 11;
    assert RunEnd(s, 10, Space) == 11;
  }

  /** `Nadia Delgado` is a title name closed by `**`. */
  lemma AnswerName(s: string)
    requires Spelled(s)
    ensures TitleNameAt(s, 5, TwoStars) == Some((18, 20))
  {
    AnswerFirstWord(s);
    AnswerRestOfName(s);
  }

  /** The ranked bold pattern matches the whole answer. */
  lemma AnswerHit(s: string)
    requires Spelled(s)
    ensures MatchAt(BoldRanked, s, 0) == Some(Hit(0, 20, 5, 18))
  {
    AnswerRank(s);
    assert s[0] == '*' && s[1] == '*';
    assert Lead(BoldRanked, s, 0) == Some(5);
    AnswerName(s);
    assert Tail(BoldRanked) == TwoStars;
  }

  /** The loop finds that one hit and stops at the end of the answer. */
  lemma AnswerScans(s: string)
    requires Spelled(s)
    ensures Scan(BoldRanked, s) == [Hit(0, 20, 5, 18)]
  {
    AnswerHit(s);
    assert Lead(BoldRanked, s, 20).None?;
    ScanWhole(BoldRanked, s, Hit(0, 20, 5, 18));
  }

  // ---------------------------------------------------------------------
  // The plain bold and the starred label patterns

  /** Only at 0 and 18 does the answer hold `**`. */
  lemma BoldLeads(s: string)
    requires Spelled(s)
    ensures forall q :: 0 <= q <= 20 && q != 0 && q != 18 ==> Lead(Bold, s, q).None?
  {
  }

  lemma BoldMissesStart(s: string)
    requires Spelled(s)
    ensures MatchAt(Bold, s, 0).None?
  {
    assert s[2] == '1';
    assert WordEnd(s, 2).None?;
  }

  lemma BoldMissesEnd(s: string)
    requires Spelled(s)
    ensures MatchAt(Bold, s, 18).None?
  {
    assert WordEnd(s, 20).None?;
  }

  /** The plain bold pattern needs a capital right after `**`. */
  lemma BoldScans(s: string)
    requires Spelled(s)
    ensures Scan(Bold, s) == []
  {
    BoldLeads(s);
    BoldMissesStart(s);
    BoldMissesEnd(s);
    ScanEmpty(Bold, s);
  }

  /** Only at 0, 1, 18 and 19 does the answer hold `*`. */
  lemma StarLeads(s: string)
    requires Spelled(s)
    ensures forall q :: 0 <= q <= 20 && q != 0 && q != 1 && q != 18 && q != 19 ==>
      Lead(StarLabel, s, q).None?
  {
  }

  /** No name starts right after any of the four stars. */
  lemma StarMisses0(s: string)
    requires Spelled(s)
    ensures MatchAt(StarLabel, s, 0).None?
  {
    assert s[1] == '*';
    assert WordEnd(s, 1).None?;
  }

  lemma StarMisses1(s: string)
    requires Spelled(s)
    ensures MatchAt(StarLabel, s, 1).None?
  {
    assert s[2] == '1';
    assert WordEnd(s, 2).None?;
  }

  lemma StarMisses18(s: string)
    requires Spelled(s)
    ensures MatchAt(StarLabel, s, 18).None?
  {
    assert s[19] == '*';
    assert WordEnd(s, 19).None?;
  }

  lemma StarMisses19(s: string)
    requires Spelled(s)
    ensures MatchAt(StarLabel, s, 19).None?
  {
    assert WordEnd(s, 20).None?;
  }

  /** The label patterns need a colon after the name. */
  lemma StarLabelScans(s: string)
    requires Spelled(s)
    ensures Scan(StarLabel, s) == []
  {
    StarLeads(s);
    StarMisses0(s);
    StarMisses1(s);
    StarMisses18(s);
    StarMisses19(s);
    ScanEmpty(StarLabel, s);
  }

  // ---------------------------------------------------------------------
  // The line-anchored patterns

  /** The answer is a single line. */
  lemma AnswerOneLine(s: string)
    requires Spelled(s)
    ensures forall q :: 0 < q <= |s| ==> !AtLineStart(s, q)
  {
  }

  /** At index 0 the answer starts with `**`: no capital, no bullet
      followed by a space, and no digit. */
  lemma LabelMisses(s: string)
    requires Spelled(s)
    ensures MatchAt(LineLabel, s, 0).None?
  {
    assert s[0] == '*';
    assert WordEnd(s, 0).None?;
  }

  lemma BulletMisses(s: string)
    requires Spelled(s)
    ensures MatchAt(Bulleted, s, 0).None?
  {
    assert s[1] == '*';
    assert RunEnd(s, 1, Space) == 1;
  }

  lemma NumberMisses(s: string)
    requires Spelled(s)
    ensures MatchAt(NumberedLine, s, 0).None?
  {
    assert s[0] == '*';
    assert RunEnd(s, 0, Digit) == 0;
  }

  /** The line patterns can only start at index 0. */
  lemma LineLabelScans(s: string)
    requires Spelled(s)
    ensures Scan(LineLabel, s) == []
  {
    AnswerOneLine(s);
    LabelMisses(s);
    ScanOneLine(LineLabel, s);
  }

  lemma BulletedScans(s: string)
    requires Spelled(s)
    ensures Scan(Bulleted, s) == []
  {
    AnswerOneLine(s);
    BulletMisses(s);
    ScanOneLine(Bulleted, s);
  }

  lemma NumberedScans(s: string)
    requires Spelled(s)
    ensures Scan(NumberedLine, s) == []
  {
    AnswerOneLine(s);
    NumberMisses(s);
    ScanOneLine(NumberedLine, s);
  }

  // ---------------------------------------------------------------------
  // The all-caps pattern

  /** The answer has capitals only at 5 and 11, each followed by a
      lower-case letter. */
  lemma AnswerCapitals(s: string)
    requires Spelled(s)
    ensures forall q :: 0 <= q < |s| && IsUpper(s[q]) ==> q == 5 || q == 11
    ensures s[6] == 'a' && s[12] == 'e'
  {
  }

  /** No run of two capitals: the all-caps pattern finds nothing. */
  lemma CapsScans(s: string)
    requires Spelled(s)
    ensures Scan(AllCaps, s) == []
  {
    AnswerCapitals(s);
    forall q | 0 <= q <= |s| ensures TokenEnd(s, q).None? {
      if q < |s| && IsUpper(s[q]) {
        assert RunEnd(s, q + 1, Upper) == q + 1;
      }
    }
    ScanEmpty(AllCaps, s);
  }

  // ---------------------------------------------------------------------
  // What the extractor makes of the answer

  lemma AnswerSlice(s: string)
    requires Spelled(s)
    ensures s[5..18] == "Nadia Delgado"
  {
    assert s[5..18] == Answer[5..18];
  }

  lemma AnswerCapture(s: string)
    requires Spelled(s)
    ensures Captures(BoldRanked, s) == ["Nadia Delgado"]
  {
    AnswerScans(s);
    CapturesOne(BoldRanked, s, Hit(0, 20, 5, 18));
    AnswerSlice(s);
  }

  /** Only the last six patterns, which capture nothing. */
  lemma LaterPatternsCaptureNothing(s: string)
    requires Spelled(s)
    ensures CapturesOf([StarLabel, LineLabel, Bulleted, Bold, NumberedLine, AllCaps], s) == []
  {
    StarLabelScans(s);
    LineLabelScans(s);
    BulletedScans(s);
    BoldScans(s);
    NumberedScans(s);
    CapsScans(s);
    CapturesNone(StarLabel, s);
    CapturesNone(LineLabel, s);
    CapturesNone(Bulleted, s);
    CapturesNone(Bold, s);
    CapturesNone(NumberedLine, s);
    CapturesNone(AllCaps, s);
    assert CapturesOf([], s) == [];
    assert CapturesOf([AllCaps], s) == [];
    assert CapturesOf([NumberedLine, AllCaps], s) == [];
    assert CapturesOf([Bold, NumberedLine, AllCaps], s) == [];
    assert CapturesOf([Bulleted, Bold, NumberedLine, AllCaps], s) == [];
    assert CapturesOf([LineLabel, Bulleted, Bold, NumberedLine, AllCaps], s) == [];
  }

  /** The captures of the first pattern come before those of the other six. */
  lemma FirstPatternSplit(s: string)
    ensures AllCaptures(s)
      == Captures(BoldRanked, s) + CapturesOf([StarLabel, LineLabel, Bulleted, Bold, NumberedLine, AllCaps], s)
  {
    assert Patterns[1..] == [StarLabel, LineLabel, Bulleted, Bold, NumberedLine, AllCaps];
  }

  /** Across the seven patterns the only capture is the name. */
  lemma AnswerCaptures(s: string)
    requires Spelled(s)
    ensures AllCaptures(s) == ["Nadia Delgado"]
  {
    FirstPatternSplit(s);
    AnswerCapture(s);
    LaterPatternsCaptureNothing(s);
  }

  lemma AnswerIsTitle()
    ensures IsTitleName("Nadia Delgado")
  {
    AnswerCapture(Answer);
    assert "Nadia Delgado" in Captures(BoldRanked, Answer);
  }

  lemma AnswerSpaces()
    ensures SpacesOnly("Nadia Delgado")
  {
  }

  lemma AnswerKey()
    ensures NameKey("Nadia Delgado") == "Nadia Delgado"
  {
    AnswerIsTitle();
    AnswerSpaces();
    TitleKeyUnchanged("Nadia Delgado");
  }

  /** The extractor returns the name, unchanged by normalisation. */
  lemma AnswerExtract()
    ensures Extractor.Extract(Answer) == ["Nadia Delgado"]
  {
    AnswerCaptures(Answer);
    AnswerKey();
    ExtractOne(Answer, "Nadia Delgado");
  }
}

=== FILE: results.dfy ===
/**
 The results panel of `ResultsSection`: which of its four views is shown,
 what the populated view lists (extracted candidates, each with the first
 preview whose name relates to it, then every preview again), the agent
 chip, and the body of the preview modal.
 */
module Results {
  import opened Text
  import Cleaner
  import Extractor

  /** A resume the search service can show: `{ name, resume_url }`. */
  datatype PreviewUrl = PreviewUrl(name: string, resumeUrl: string)

  /** The search payload. `matched_candidates` is carried but never read;
      `preview_urls` is optional. */
  datatype SearchResult = SearchResult(
    agentUsed: string,
    answer: string,
    matchedCandidates: seq<string>,
    previewUrls: Option<seq<PreviewUrl>>)

  // ---------------------------------------------------------------------
  // Preview URLs

  /** `ensurePDFPreviewUrl`: add `.pdf` unless the URL already ends with it. */
  function EnsurePdf(url: string): (r: string)
    ensures EndsWith(r, ".pdf")
    ensures r == url <==> EndsWith(url, ".pdf")
    ensures r == url || r == url + ".pdf"
  {
    if EndsWith(url, ".pdf") then url else url + ".pdf"
  }

  /** Resolving a URL twice is resolving it once. */
  lemma EnsurePdfIdempotent(url: string)
    ensures EnsurePdf(EnsurePdf(url)) == EnsurePdf(url)
  {
  }

  // ---------------------------------------------------------------------
  // Matching candidates to previews

  /** The `find` predicate: either lower-cased name contains the other. */
  predicate Related(name: string, candidate: string) {
    Contains(Lower(name), Lower(candidate)) || Contains(Lower(candidate), Lower(name))
  }

  lemma RelatedSymmetric(a: string, b: string)
    ensures Related(a, b) <==> Related(b, a)
  {
  }

  /** An empty preview name is contained in every candidate, so it relates
      to all of them. */
  lemma EmptyNameRelatesToAll(candidate: string)
    ensures Related("", candidate)
  {
    assert Lower("") == "";
    assert IsPrefix("", Lower(candidate));
  }

  /** Containment ignores ASCII case in both directions. */
  lemma {:induction false} RelatedIffOccurs(name: string, candidate: string)
    ensures Related(name, candidate) <==>
      (exists i: nat :: OccursAt(Lower(name), Lower(candidate), i))
      || (exists i: nat :: OccursAt(Lower(candidate), Lower(name), i))
  {
    ContainsIffOccurs(Lower(name), Lower(candidate));
    ContainsIffOccurs(Lower(candidate), Lower(name));
  }

  /** Index of the first preview whose name relates to `candidate`. */
  function FirstRelated(ps: seq<PreviewUrl>, candidate: string): (r: Option<nat>)
    ensures r.Some? ==> r.value < |ps| && Related(ps[r.value].name, candidate)
    ensures r.Some? ==> forall j :: 0 <= j < r.value ==> !Related(ps[j].name, candidate)
    ensures r.None? ==> forall j :: 0 <= j < |ps| ==> !Related(ps[j].name, candidate)
  {
    if |ps| == 0 then None
    else if Related(ps[0].name, candidate) then Some(0)
    else
      match FirstRelated(ps[1..], candidate)
      case Some(k) =>
        assert forall j :: 1 <= j < k + 1 ==> ps[j] == ps[1..][j - 1];
        Some(k + 1)
      case None =>
        assert forall j :: 1 <= j < |ps| ==> ps[j] == ps[1..][j - 1];
        None
  }

  /** `searchResult.preview_urls?.find(...)`: the first related preview, and
      nothing when the list is absent or no entry relates. */
  function FindPreview(urls: Option<seq<PreviewUrl>>, candidate: string): (r: Option<PreviewUrl>)
    ensures r.Some? <==> urls.Some? && exists j :: 0 <= j < |urls.value| && Related(urls.value[j].name, candidate)
    ensures r.Some? ==> exists k :: (0 <= k < |urls.value| && urls.value[k] == r.value
      && Related(urls.value[k].name, candidate)
      && forall j :: 0 <= j < k ==> !Related(urls.value[j].name, candidate))
  {
    match urls
    case None => None
    case Some(ps) =>
      match FirstRelated(ps, candidate)
      case Some(k) => Some(ps[k])
      case None => None
  }

  // ---------------------------------------------------------------------
  // The agent chip

  datatype Color = Success | Warning | Secondary | Primary | Default

  /** `getAgentColor`: the colour of the five known agents, `default` for
      every other name. */
  function AgentColor(agent: string): (c: Color)
    ensures c == Success <==> agent == "skill_matcher"
    ensures c == Warning <==> agent == "experience_analyzer"
    ensures c == Secondary <==> agent == "relevancy_scorer"
    ensures c == Primary <==> agent == "seniority_detector"
  {
    if agent == "skill_matcher" then Success
    else if agent == "experience_analyzer" then Warning
    else if agent == "relevancy_scorer" then Secondary
    else if agent == "seniority_detector" then Primary
    else Default
  }

  /** `s.replace(from, to)` with a string pattern: only the first
      occurrence is replaced. */
  function ReplaceFirst(s: string, from: char, to: char): (r: string)
    ensures |r| == |s|
    ensures from !in s ==> r == s
    ensures from in s ==> r[FirstIndex(s, from)] == to
    ensures from in s ==> forall i :: 0 <= i < |s| && i != FirstIndex(s, from) ==> r[i] == s[i]
  {
    if from in s then
      var k := FirstIndex(s, from);
      s[..k] + [to] + s[k + 1..]
    else s
  }

  /** `\b\w` at `i`: a word character with no word character before it. */
  predicate WordStart(t: string, i: nat)
    requires i < |t|
  {
    IsWordChar(t[i]) && (i == 0 || !IsWordChar(t[i - 1]))
  }

  /** `t.replace(/\b\w/g, l => l.toUpperCase())`: a word character with no
      word character before it is upper-cased. */
  function CapitaliseWordStarts(t: string): (r: string)
    ensures |r| == |t|
    ensures forall i :: 0 <= i < |t| && !WordStart(t, i) ==> r[i] == t[i]
  {
    seq(|t|, i requires 0 <= i < |t| => if WordStart(t, i) then UpperChar(t[i]) else t[i])
  }

  /** Only the case of letters changes, and no word starts with a
      lower-case letter afterwards. */
  lemma CapitaliseWordStartsCase(t: string)
    ensures Lower(CapitaliseWordStarts(t)) == Lower(t)
    ensures forall i :: 0 <= i < |t| && WordStart(t, i) ==> !IsLower(CapitaliseWordStarts(t)[i])
  {
    var r := CapitaliseWordStarts(t);
    forall i | 0 <= i < |t| ensures LowerChar(r[i]) == LowerChar(t[i]) && (WordStart(t, i) ==> !IsLower(r[i])) {
      UpperCharCase(t[i]);
    }
  }

  /** Where the label has a space instead of an underscore: the first
      underscore of the agent name, or -1 when it has none. */
  function SpacedUnderscore(agent: string): int {
    if '_' in agent then FirstIndex(agent, '_') else -1
  }

  /** Position `i` of the label starts a word: nothing or a non-word
      character precedes it, once the first underscore has become a space. */
  predicate StartsLabelWord(agent: string, i: nat)
    requires i < |agent|
  {
    i == 0 || !IsWordChar(agent[i - 1]) || i - 1 == SpacedUnderscore(agent)
  }

  /** Character `i` of the label, read off the agent name: the first
      underscore is a space, a lower-case letter that starts a word is
      upper-cased, and every other character is kept. */
  function LabelChar(agent: string, i: nat): char
    requires i < |agent|
  {
    if i == SpacedUnderscore(agent) then ' '
    else if IsLower(agent[i]) && StartsLabelWord(agent, i) then UpperChar(agent[i])
    else agent[i]
  }

  /** `formatAgentName`: the two replacements agree with the reading of
      the label character by character. */
  function FormatAgentName(agent: string): (r: string)
    ensures |r| == |agent|
    ensures forall i :: 0 <= i < |r| ==> r[i] == LabelChar(agent, i)
  {
    var t := ReplaceFirst(agent, '_', ' ');
    var u := SpacedUnderscore(agent);
    assert forall i :: 0 <= i < |t| ==> t[i] == if i == u then ' ' else agent[i];
    CapitaliseWordStarts(t)
  }

  /** An agent name with a single underscore, like every known agent, shows
      no underscore: it has become the space between the two words. */
  lemma SingleUnderscoreBecomesSpace(agent: string, k: nat)
    requires k < |agent| && agent[k] == '_'
    requires forall i :: 0 <= i < |agent| && i != k ==> agent[i] != '_'
    ensures '_' !in FormatAgentName(agent)
    ensures FormatAgentName(agent)[k] == ' '
  {
    assert FirstIndex(agent, '_') == k;
  }

  // ---------------------------------------------------------------------
  // The populated view and the modal

  /** One candidate card: the name and the preview it offers, if any. */
  datatype Row = Row(candidate: string, preview: Option<PreviewUrl>)

  /** What the populated view shows. `additional` is the "Additional Resume
      Previews" list; the section is hidden when it is empty. */
  datatype Panel = Panel(
    candidateCount: nat,
    agentColor: Color,
    agentLabel: string,
    analysis: string,
    rows: seq<Row>,
    additional: seq<PreviewUrl>)

  function Rows(candidates: seq<string>, urls: Option<seq<PreviewUrl>>): (r: seq<Row>)
    ensures |r| == |candidates|
    ensures forall i :: 0 <= i < |r| ==> r[i].candidate == candidates[i]
    ensures forall i :: 0 <= i < |r| ==> r[i].preview == FindPreview(urls, candidates[i])
    ensures forall i :: 0 <= i < |r| ==> r[i].preview.Some? ==>
      urls.Some? && r[i].preview.value in urls.value && Related(r[i].preview.value.name, r[i].candidate)
  {
    seq(|candidates|, i requires 0 <= i < |candidates| => Row(candidates[i], FindPreview(urls, candidates[i])))
  }

  /** The populated view of a search result. */
  function BuildPanel(res: SearchResult): (p: Panel)
    ensures p.candidateCount == |p.rows| == |Extractor.Extract(res.answer)|
    ensures forall i :: 0 <= i < |p.rows| ==> p.rows[i].candidate == Extractor.Extract(res.answer)[i]
    ensures forall i :: 0 <= i < |p.rows| ==> p.rows[i].preview.Some? ==>
      res.previewUrls.Some? && p.rows[i].preview.value in res.previewUrls.value
      && Related(p.rows[i].preview.value.name, p.rows[i].candidate)
    ensures forall i :: 0 <= i < |p.rows| ==> p.rows[i].preview == FindPreview(res.previewUrls, p.rows[i].candidate)
    ensures res.previewUrls.None? ==> p.additional == []
    ensures res.previewUrls.Some? ==> p.additional == res.previewUrls.value
    ensures p.agentColor == AgentColor(res.agentUsed) && p.agentLabel == FormatAgentName(res.agentUsed)
    ensures p.analysis == Cleaner.Clean(res.answer)
    ensures forall c :: c in p.analysis ==> !Cleaner.IsMarkdownSymbol(c)
    ensures Cleaner.NoTripleNewline(p.analysis)
    ensures |p.analysis| > 0 ==> !IsSpace(p.analysis[0]) && !IsSpace(p.analysis[|p.analysis| - 1])
  {
    var candidates := Extractor.Extract(res.answer);
    var rows := Rows(candidates, res.previewUrls);
    Panel(
      |candidates|,
      AgentColor(res.agentUsed),
      FormatAgentName(res.agentUsed),
      Cleaner.Clean(res.answer),
      rows,
      match res.previewUrls case Some(ps) => ps case None => [])
  }

  /** Every preview offered on a candidate card is listed again among the
      additional previews: the list is not restricted to unmatched entries. */
  lemma {:induction false} MatchedPreviewsAlsoListed(res: SearchResult, i: nat)
    requires i < |BuildPanel(res).rows| && BuildPanel(res).rows[i].preview.Some?
    ensures BuildPanel(res).rows[i].preview.value in BuildPanel(res).additional
  {
    var p := BuildPanel(res);
    assert res.previewUrls.Some?;
  }

  /** The four views, in order of precedence. */
  datatype View = Loading | NoDatabase | EmptyQuery | Populated(panel: Panel)

  /** The early returns of the component: searching wins over everything,
      then a database that is not ready, then the absence of a result. */
  function SelectView(isSearching: bool, databaseReady: bool, searchResult: Option<SearchResult>): (v: View)
    ensures v.Loading? <==> isSearching
    ensures v.NoDatabase? <==> !isSearching && !databaseReady
    ensures v.EmptyQuery? <==> !isSearching && databaseReady && searchResult.None?
    ensures v.Populated? <==> !isSearching && databaseReady && searchResult.Some?
    ensures v.Populated? ==> v.panel.candidateCount == |Extractor.Extract(searchResult.value.answer)|
    ensures v.Populated? ==> v.panel == BuildPanel(searchResult.value)
  {
    if isSearching then Loading
    else if !databaseReady then NoDatabase
    else if searchResult.None? then EmptyQuery
    else Populated(BuildPanel(searchResult.value))
  }

  /** The body of the preview modal. */
  datatype ModalBody = Frame(src: string) | NoPreviewMessage

  /** `selectedPreview?.resume_url ? <iframe src=...> : <no preview>`: an
      empty or missing URL shows the message; any other is shown as a PDF. */
  function ModalContent(selected: Option<PreviewUrl>): (m: ModalBody)
    ensures m.NoPreviewMessage? <==> selected.None? || selected.value.resumeUrl == ""
    ensures m.Frame? ==> EndsWith(m.src, ".pdf") && IsPrefix(selected.value.resumeUrl, m.src)
    ensures m.Frame? ==> (m.src == selected.value.resumeUrl <==> EndsWith(selected.value.resumeUrl, ".pdf"))
    ensures m.Frame? ==> m.src == selected.value.resumeUrl || m.src == selected.value.resumeUrl + ".pdf"
  {
    match selected
    case Some(p) => if p.resumeUrl != "" then Frame(EnsurePdf(p.resumeUrl)) else NoPreviewMessage
    case None => NoPreviewMessage
  }
}

=== FILE: scenarios.dfy ===
/**
 Concrete inputs that pin down behaviour of the component which a reader
 might not expect from the comments in its source.
 */
module Scenarios {
  import opened Text
  import opened Cleaner
  import Extractor
  import Results

  /** A dash is not one of the symbols step 1 removes. */
  lemma StripKeepsNestedBullet()
    ensures StripSymbols("- - x") == "- - x"
  {
    DashesArePlain("- - x");
    StripKeepsPlain("- - x");
  }

  lemma DashesArePlain(s: string)
    requires SpelledAs(s, "- - x")
    ensures forall i :: 0 <= i < |s| ==> !IsMarkdownSymbol(s[i])
  {
    forall i | 0 <= i < |s| ensures !IsMarkdownSymbol(s[i]) {
      assert s[i] == "- - x"[i];
    }
  }

  lemma StripKeepsSingleBullet()
    ensures StripSymbols("- x") == "- x"
  {
    StripKeepsPlain("- x");
  }

  lemma OneBulletRemoved()
    ensures ReplaceAll(Bullet, "- - x") == "- x"
    ensures ReplaceAll(Bullet, "- x") == "x"
  {
    FirstBulletRemoved();
    LastBulletRemoved();
  }

  lemma FirstBulletRemoved()
    ensures ReplaceAll(Bullet, "- - x") == "- x"
  {
    DashesLoseOne("- - x");
  }

  /** In `- - x` the marker at the start of the line goes; the second dash
      is not at the start of a line. */
  lemma DashesLoseOne(s: string)
    requires SpelledAs(s, "- - x")
    ensures ReplaceAll(Bullet, s) == "- x"
  {
    assert BulletAt(s, 0) == Some(2);
    assert ReplaceFrom(Bullet, s, 4) == "x";
    assert ReplaceFrom(Bullet, s, 3) == " x";
    assert ReplaceFrom(Bullet, s, 2) == "- x";
  }

  lemma LastBulletRemoved()
    ensures ReplaceAll(Bullet, "- x") == "x"
  {
    DashLost("- x");
  }

  lemma DashLost(s: string)
    requires SpelledAs(s, "- x")
    ensures ReplaceAll(Bullet, s) == "x"
  {
    assert BulletAt(s, 0) == Some(2);
    assert ReplaceFrom(Bullet, s, 2) == "x";
  }

  /** The number step removes the marker `1. ` of a numbered line. */
  lemma NumberedItemRemoved()
    ensures ReplaceAll(NumberedItem, "1. x") == "x"
  {
    NumberLost("1. x");
  }

  lemma NumberLost(s: string)
    requires SpelledAs(s, "1. x")
    ensures ReplaceAll(NumberedItem, s) == "x"
  {
    NumberFinds(s, 0, 0, 1, 3);
    assert !AtLineStart(s, 3);
    assert ReplaceFrom(NumberedItem, s, 3) == "x";
  }

  /** The link step keeps the label of a link and drops its target. */
  lemma LinkBecomesLabel()
    ensures ReplaceAll(Link, "[a](b)") == "a"
  {
    LinkLabelKept("[a](b)");
  }

  lemma LinkLabelKept(s: string)
    requires SpelledAs(s, "[a](b)")
    ensures ReplaceAll(Link, s) == "a"
  {
    assert LinkShape(s, 0, 2, 6);
    LinkFinds(s, 0, 2, 6);
    assert LinkAt(s, 0) == Some((2, 6));
    assert s[1..2] == "a";
    assert RuleAt(Link, s, 0) == Some(Edit(6, "a"));
  }

  /** The lazy label stops at the first `](`…`)`: in `[a](b)](c)` the
      link is `[a](b)`, not the longer `[a](b)](c)`, and the rest is kept. */
  lemma LazyLinkLabel()
    ensures ReplaceAll(Link, "[a](b)](c)") == "a](c)"
  {
    LazyLabelKept("[a](b)](c)");
  }

  lemma LazyLabelKept(s: string)
    requires SpelledAs(s, "[a](b)](c)")
    ensures ReplaceAll(Link, s) == "a](c)"
  {
    assert LinkShape(s, 0, 2, 6);
    LinkFinds(s, 0, 2, 6);
    assert LinkAt(s, 0) == Some((2, 6));
    assert s[1..2] == "a";
    NoLinkInTail(s);
    ReplaceLeftmost(Link, s, 0, 0);
    ReplaceCopies(Link, s, 6, 10);
    assert s[6..10] == "](c)";
  }

  lemma NoLinkInTail(s: string)
    requires SpelledAs(s, "[a](b)](c)")
    ensures forall q :: 6 <= q < 10 ==> RuleAt(Link, s, q).None?
  {
    forall q | 6 <= q < 10 ensures RuleAt(Link, s, q).None? {
      assert s[q] != '[';
    }
  }

  lemma LaterStepsKeep(s: string)
    requires s == "- x" || s == "x"
    ensures ReplaceAll(NumberedItem, s) == s
    ensures ReplaceAll(Link, s) == s
    ensures ReplaceAll(BlankLines, s) == s
    ensures Trim(s) == s
  {
    NoNumberedItem(s);
    TrimKeepsUnpadded(s);
  }

  lemma NoNumberedItem(s: string)
    requires s == "- x" || s == "x"
    ensures ReplaceAll(NumberedItem, s) == s
  {
    forall q | 0 <= q < |s| ensures RuleAt(NumberedItem, s, q).None? {
      if q == 0 { assert RunEnd(s, 0, Space) == 0; assert RunEnd(s, 0, Digit) == 0; }
    }
  }

  /** The bullet step removes one bullet per line and pass: the `^` anchor
      does not hold again after a removed marker. So cleaning is not
      idempotent. */
  lemma CleanTakesOneBulletPerPass()
    ensures Clean("- - x") == "- x"
    ensures Clean(Clean("- - x")) == "x"
  {
    StripKeepsNestedBullet();
    StripKeepsSingleBullet();
    OneBulletRemoved();
    LaterStepsKeep("- x");
    LaterStepsKeep("x");
  }

  /** The key splits words on `' '` only: in a name broken over a line,
      like `JOHN\nSMITH`, the letter after the line feed is lower-cased
      like any letter inside a word, giving `John\nsmith`. */
  lemma NewlineIsNotAWordBreak(t: string, i: nat)
    requires 0 < i < |t| && t[i - 1] == '\n'
    ensures Extractor.Normalise(t)[i] == LowerChar(t[i])
    ensures IsUpper(t[i]) ==> IsLower(Extractor.Normalise(t)[i])
  {
  }

  /** A candidate and a preview name with the words in another order are
      not related: neither lower-cased name contains the other. */
  lemma ReorderedNameNotRelated()
    ensures !Results.Related("Delgado, Nadia (resume)", "Nadia Delgado")
  {
    ReorderedLower();
    ReorderedNotInside();
    Results.RelatedIffOccurs("Delgado, Nadia (resume)", "Nadia Delgado");
  }

  lemma ReorderedLower()
    ensures Lower("Delgado, Nadia (resume)") == "delgado, nadia (resume)"
    ensures Lower("Nadia Delgado") == "nadia delgado"
  {
    PreviewLower("Delgado, Nadia (resume)");
    CandidateLower("Nadia Delgado");
  }

  lemma PreviewLower(t: string)
    requires SpelledAs(t, "Delgado, Nadia (resume)")
    ensures Lower(t) == "delgado, nadia (resume)"
  {
  }

  lemma CandidateLower(t: string)
    requires SpelledAs(t, "Nadia Delgado")
    ensures Lower(t) == "nadia delgado"
  {
  }

  /** Lower-cased, the candidate occurs nowhere in the preview name, and
      the longer preview name cannot occur in the candidate. */
  lemma ReorderedNotInside()
    ensures forall i: nat :: !OccursAt("delgado, nadia (resume)", "nadia delgado", i)
    ensures forall i: nat :: !OccursAt("nadia delgado", "delgado, nadia (resume)", i)
  {
    var a := "delgado, nadia (resume)";
    var b := "nadia delgado";
    forall i: nat ensures !OccursAt(a, b, i) {
      if i == 9 {
        assert a[i..i + |b|][6] == '(';
      } else if i + |b| <= |a| {
        assert a[i] != 'n';
        assert a[i..i + |b|][0] != 'n';
      }
    }
  }

  /** Only the first underscore is replaced; the underscore is a word
      character, so the letter after the second one stays lower case. */
  lemma SecondUnderscoreKept()
    ensures Results.FormatAgentName("a_b_c") == "A B_c"
  {
    var s := "a_b_c";
    assert s[..1] == "a";
    Extractor.FirstIndexAt(s, 1);
    assert Results.SpacedUnderscore(s) == 1;
  }
}

=== FILE: text.dfy ===
/**
 Character classes and small string helpers shared by the answer cleaner,
 the candidate extractor and the results panel of `ResultsSection.tsx`.

 Characters are Unicode scalar values. The classes follow ECMAScript:
 `\s` (and `String.prototype.trim`) is WhiteSpace plus LineTerminator,
 `\d` is `[0-9]`, `\w` is `[A-Za-z0-9_]`, and `^` in multiline mode holds
 at the start of the text or after a LineTerminator. Case mapping is
 restricted to ASCII letters.
 */
module Text {

  datatype Option<T> = None | Some(value: T)

  /** ECMAScript LineTerminator: LF, CR, LINE SEPARATOR, PARAGRAPH SEPARATOR. */
  predicate IsLineTerminator(c: char) {
    c == '\n' || c == '\r' || c == '\U{2028}' || c == '\U{2029}'
  }

  /** The characters matched by `\s` and removed by `trim()`. */
  predicate IsSpace(c: char) {
    || IsLineTerminator(c)
    || c == '\t' || c == '\U{000B}' || c == '\U{000C}' || c == ' '
    || c == '\U{00A0}' || c == '\U{1680}'
    || ('\U{2000}' <= c <= '\U{200A}')
    || c == '\U{202F}' || c == '\U{205F}' || c == '\U{3000}' || c == '\U{FEFF}'
  }

  predicate IsUpper(c: char) { 'A' <= c <= 'Z' }

  predicate IsLower(c: char) { 'a' <= c <= 'z' }

  predicate IsDigit(c: char) { '0' <= c <= '9' }

  /** `\w` */
  predicate IsWordChar(c: char) { IsUpper(c) || IsLower(c) || IsDigit(c) || c == '_' }

  function LowerChar(c: char): char {
    if IsUpper(c) then (c as int + 32) as char else c
  }

  function UpperChar(c: char): char {
    if IsLower(c) then (c as int - 32) as char else c
  }

  /** Lower-casing forgets an upper-casing of a lower-cased character. */
  lemma CaseRoundTrip(c: char)
    ensures LowerChar(LowerChar(c)) == LowerChar(c)
    ensures LowerChar(UpperChar(LowerChar(c))) == LowerChar(c)
  {
  }

  /** Upper-casing leaves no lower-case letter and is undone by lower-casing. */
  lemma UpperCharCase(c: char)
    ensures !IsLower(UpperChar(c)) && LowerChar(UpperChar(c)) == LowerChar(c)
  {
  }

  /** `toLowerCase()` on ASCII letters. */
  function Lower(s: string): (r: string)
    ensures |r| == |s|
    ensures forall i :: 0 <= i < |s| ==> r[i] == LowerChar(s[i])
  {
    seq(|s|, i requires 0 <= i < |s| => LowerChar(s[i]))
  }

  /** `^` with the `m` flag: position `p` starts a line. */
  predicate AtLineStart(s: string, p: nat)
    requires p <= |s|
  {
    p == 0 || IsLineTerminator(s[p - 1])
  }

  /** The classes that the matchers consume in maximal runs. */
  datatype Class = Space | Upper | LowerCase | Digit | Newline

  predicate InClass(c: char, k: Class) {
    match k
    case Space => IsSpace(c)
    case Upper => IsUpper(c)
    case LowerCase => IsLower(c)
    case Digit => IsDigit(c)
    case Newline => c == '\n'
  }

  /** End of the longest run of class `k` starting at `i`: what a greedy
      `\s*`, `[A-Z]+`, `[a-z]*`, `\d*` or `\n*` consumes there. */
  function RunEnd(s: string, i: nat, k: Class): (e: nat)
    requires i <= |s|
    ensures i <= e <= |s|
    ensures forall j :: i <= j < e ==> InClass(s[j], k)
    ensures e < |s| ==> !InClass(s[e], k)
    decreases |s| - i
  {
    if i < |s| && InClass(s[i], k) then RunEnd(s, i + 1, k) else i
  }

  /** A run of class `k` from `i` that stops at `e` is the greedy run. */
  lemma {:induction false} RunEndAt(s: string, i: nat, k: Class, e: nat)
    requires i <= e <= |s|
    requires forall j :: i <= j < e ==> InClass(s[j], k)
    requires e < |s| ==> !InClass(s[e], k)
    ensures RunEnd(s, i, k) == e
    decreases e - i
  {
    if i < e {
      RunEndAt(s, i + 1, k, e);
    }
  }

  /** Length of the leading run of `trim()` whitespace. */
  function LeadingSpaces(s: string): (n: nat)
    ensures n <= |s|
    ensures forall i :: 0 <= i < n ==> IsSpace(s[i])
    ensures n < |s| ==> !IsSpace(s[n])
  {
    RunEnd(s, 0, Space)
  }

  /** Length of the trailing run of `trim()` whitespace. */
  function TrailingSpaces(s: string): (n: nat)
    ensures n <= |s|
    ensures forall i :: |s| - n <= i < |s| ==> IsSpace(s[i])
    ensures n < |s| ==> !IsSpace(s[|s| - n - 1])
    decreases |s|
  {
    if |s| > 0 && IsSpace(s[|s| - 1]) then 1 + TrailingSpaces(s[..|s| - 1]) else 0
  }

  /** `r` is the slice of `s` at `a`, and only whitespace lies around it. */
  predicate TrimmedAt(r: string, s: string, a: nat) {
    && a + |r| <= |s|
    && r == s[a..a + |r|]
    && (forall i :: 0 <= i < a ==> IsSpace(s[i]))
    && (forall i :: a + |r| <= i < |s| ==> IsSpace(s[i]))
  }

  /** `r` is `s` with some leading and trailing whitespace removed. */
  ghost predicate TrimmedFrom(r: string, s: string) {
    exists a: nat :: TrimmedAt(r, s, a)
  }

  /** `String.prototype.trim`. */
  function Trim(s: string): (r: string)
    ensures TrimmedFrom(r, s)
    ensures |r| > 0 ==> !IsSpace(r[0]) && !IsSpace(r[|r| - 1])
  {
    var a := LeadingSpaces(s);
    if a == |s| then
      assert TrimmedAt([], s, |s|);
      []
    else
      var b := |s| - TrailingSpaces(s);
      assert a < b by { assert !IsSpace(s[a]); }
      assert TrimmedAt(s[a..b], s, a);
      s[a..b]
  }

  lemma TrimKeepsUnpadded(s: string)
    requires |s| > 0 && !IsSpace(s[0]) && !IsSpace(s[|s| - 1])
    ensures Trim(s) == s
  {
  }

  /** `a` occurs in `b` at position 0. */
  predicate IsPrefix(a: string, b: string) {
    |a| <= |b| && b[..|a|] == a
  }

  /** `hay.includes(needle)`; the empty needle is found everywhere. */
  predicate Contains(hay: string, needle: string)
    decreases |hay|
  {
    IsPrefix(needle, hay) || (|hay| > 0 && Contains(hay[1..], needle))
  }

  /** `needle` occurs in `hay` starting at index `i`. */
  predicate OccursAt(hay: string, needle: string, i: nat) {
    i + |needle| <= |hay| && hay[i..i + |needle|] == needle
  }

  /** `Contains` agrees with the positional reading of substring search. */
  lemma {:induction false} ContainsIffOccurs(hay: string, needle: string)
    ensures Contains(hay, needle) <==> exists i: nat :: OccursAt(hay, needle, i)
    decreases |hay|
  {
    if exists i: nat :: OccursAt(hay, needle, i) {
      var i: nat :| OccursAt(hay, needle, i);
      if i == 0 {
        assert IsPrefix(needle, hay);
      } else {
        assert OccursAt(hay[1..], needle, i - 1) by {
          assert hay[1..][i - 1..i - 1 + |needle|] == hay[i..i + |needle|];
        }
        ContainsIffOccurs(hay[1..], needle);
      }
    }
    if Contains(hay, needle) {
      if IsPrefix(needle, hay) {
        assert OccursAt(hay, needle, 0);
      } else {
        ContainsIffOccurs(hay[1..], needle);
        var i: nat :| OccursAt(hay[1..], needle, i);
        assert OccursAt(hay, needle, i + 1) by {
          assert hay[1..][i..i + |needle|] == hay[i + 1..i + 1 + |needle|];
        }
      }
    }
  }

  /** `s.endsWith(suffix)`. */
  predicate EndsWith(s: string, suffix: string) {
    |suffix| <= |s| && s[|s| - |suffix|..] == suffix
  }

  // Solver helpers: the next three lemmas are generic sequence facts that
  // model nothing in the component.

  /** Regrouping a concatenation. Proofs about recursive text functions
      call this rather than leave the regrouping to sequence extensionality,
      which is costly when those functions' contracts are in scope. */
  lemma ConcatAssoc<T>(a: seq<T>, b: seq<T>, c: seq<T>)
    ensures (a + b) + c == a + (b + c)
  {
  }

  /** A non-empty slice is its first element and the rest. */
  lemma SliceCons<T>(s: seq<T>, p: nat, m: nat)
    requires p < m <= |s|
    ensures s[p..m] == [s[p]] + s[p + 1..m]
  {
  }

  /** A concatenation with a non-empty left part starts where that part starts. */
  lemma ConcatHead<T>(a: seq<T>, b: seq<T>)
    requires |a| > 0
    ensures (a + b)[0] == a[0] && (a + b)[1..] == a[1..] + b
  {
  }

  /** `t` has the characters of `w`, one by one. Lemmas about a fixed text
      take such a `t` rather than the literal, so that the solver reasons
      from the characters instead of evaluating every function on the literal. */
  predicate SpelledAs(t: string, w: string) {
    |t| == |w| && forall i :: 0 <= i < |t| ==> t[i] == w[i]
  }

  predicate NoDuplicates<T(==)>(xs: seq<T>) {
    forall i, j :: 0 <= i < j < |xs| ==> xs[i] != xs[j]
  }

  /** Index of the first occurrence of `x` in `xs`. */
  function FirstIndex<T(==)>(xs: seq<T>, x: T): (r: nat)
    requires x in xs
    ensures r < |xs| && xs[r] == x && x !in xs[..r]
  {
    if xs[0] == x then 0 else 1 + FirstIndex(xs[1..], x)
  }
}
